=== FILE: README.md ===
# URL health monitor — a Dafny model of the health-check engine

This project models the health-check engine of a Next.js URL monitor. The
engine has six parts:

- **The probe endpoint** (`POST /api/check-url`). It keeps a per-URL verdict cache with a five-minute time-to-live, replays live entries with jittered latency and a rare status flip, turns a HEAD probe's `response.ok` into UP/DOWN, and invents a verdict when the probe cannot complete. Module `ProbeCache`.
- **The dashboard's list of monitored URLs.** It records a result into a history capped at 1000 entries, recomputes uptime, adds a URL from the single or bulk form (http/https only, no duplicates, at most 50 lines), removes a URL, guards against two checks of one id in flight, runs "check all" in windows of five, and computes the summary figures. Module `Dashboard`.
- **The real-time monitoring hook.** It keeps a last-known-status map and reports a transition exactly when a status changes. A cycle checks only the enabled URLs and builds one statistics sample; samples go into a ring of 50. It also has a Running/Stopped flag with a timer handle. Module `Scheduler`.
- **The server-side registry** (`/api/urls`). It answers 400, 409 and 404, creates records, and applies a one-shot initial check only if the record still exists. Module `Registry`.
- **The metrics panel of one URL.** It covers the 24h/7d/30d window, the counts, uptime and min/avg/max latency, the reliability score, and the tag editor. Module `UrlMetrics`.
- **The notification centre.** It covers the unread count, mark-read, mark-all-read, remove, clear, and the "99+" badge. Module `Notifications`.

`Common` holds the shared vocabulary: verdicts, statuses, history entries, uptime, sums, `Math.round`, and `slice(-n)`. `Text` holds JavaScript's `trim` and single-character `split`, with a split/join round trip.

Everything is a pure function over immutable datatypes. The only method is the "check all" planner, and its loop invariant links it to a reference schedule.

The environment enters as parameters:

- **Randomness:** every `Math.random()` draw is a real in [0, 1). `ProbeCache.Draws` holds one request's draws.
- **The clock:** `Date.now()` is `now`, in milliseconds. ISO timestamps are modelled by the same millisecond count.
- **The network:** a probe's or request's outcome is an input, either `ProbeOutcome` or `CheckOutcome`.
- **URL parsing:** `new URL(s)` is the parameter `parse`, which yields a protocol or a parse failure.
- **Ids:** generated ids are parameters (`id`, or `mkId(k)` for the k-th URL of a bulk add).
- **Timers:** the timer's handle is a parameter.

In these places the model follows the code:

- The dashboard's record step does not emit status changes. Only the monitoring hook does.
- `Scheduler.RestartAsWritten`: a change of interval does not restart a running monitor. See the findings below.
- URLs are compared as raw strings, with no normalisation.
- `Dashboard.AddBulkUrlsAsWritten`: the bulk form does not reject duplicates within one input. See the findings below.
- A monitoring cycle probes every enabled URL at once, with no bound on parallelism.
- A cache write takes `Date.now()`, which need not strictly increase.

## Model

| member | source | states |
|---|---|---|
| Common.TakeLast | app/page.tsx:250 | `slice(-n)`: the result is a suffix of the input; it is the whole input when the input has at most n elements, and exactly n elements otherwise |
| Common.Uptime | app/page.tsx:253-255 | uptime is the share of UP entries times 100, so it lies in [0, 100]; it is 0 for an empty history |
| Common.Percent | app/page.tsx:253-255 | `(part / n) * 100` equals part ÷ n × 100, lies in [0, 100] and, times n, gives 100 × part |
| Common.PercentExtremes | app/page.tsx:253-255 | a share is 100% exactly when it is the whole, and 0% exactly when it is nothing |
| Common.UptimeExtremes | app/page.tsx:253-255 | uptime is 100 exactly when the history is non-empty and every entry is UP, and 0 exactly when no entry is UP |
| Common.Opposite | app/api/check-url/route.ts:58 | the flipped verdict differs from the input, so with two verdicts it is the other one |
| Common.CountVerdict | app/page.tsx:254 | the number of entries with a verdict is at most the length; it is 0 exactly when no entry has it and the length exactly when all do; one entry counts 1 or 0 |
| Common.CountVerdictAppend | components/url-metrics.tsx:72-73 | the count distributes over concatenation |
| Common.CountVerdictPartition | components/url-metrics.tsx:71-73 | UP and DOWN counts of a history add up to its length |
| Common.Sum | components/url-metrics.tsx:81 | the sum of an empty list is 0 and of one element is that element |
| Common.SumAppend | hooks/use-real-time-monitoring.ts:86-88 | the sum distributes over concatenation |
| Common.SumAtLeast | components/url-metrics.tsx:81 | a sum of n values, each at least lo, is at least n × lo |
| Common.SumAtMost | components/url-metrics.tsx:81 | a sum of n values, each at most hi, is at most n × hi |
| Common.MeanBetweenMinMax | components/url-metrics.tsx:81-85 | the mean of a non-empty list of latencies lies between their minimum and maximum |
| Common.MinOf | components/url-metrics.tsx:84 | `Math.min(...xs)` is an element of xs and at most every element |
| Common.MaxOf | components/url-metrics.tsx:85 | `Math.max(...xs)` is an element of xs and at least every element |
| Common.Round | hooks/use-real-time-monitoring.ts:98 | `Math.round` gives the integer within half a unit, halves going up |
| Common.RoundBetween | app/page.tsx:366-369 | rounding a value between two integers stays between them |
| Text.Trim | app/page.tsx:145 | `trim` returns at most the input's length; it is empty exactly when the input is all white space, and otherwise starts and ends with non-space |
| Text.TrimIsSlice | app/page.tsx:145 | the trimmed text is a contiguous slice of the input, and everything cut off before and after it is white space |
| Text.TrimIdempotent | app/page.tsx:145 | trimming twice equals trimming once |
| Text.Split | app/page.tsx:144 | `split("\n")` gives at least one piece, and no piece contains the separator |
| Text.JoinSplit | app/page.tsx:144 | joining the pieces of a split with the separator restores the input |
| Text.SplitJoin | app/page.tsx:144 | splitting a join of separator-free pieces gives back the pieces |
| Text.SplitAt | app/page.tsx:144 | splitting at the first separator gives the text before it, then the split of the rest |
| ProbeCache.Lookup | app/api/check-url/route.ts:51-52 | a cached entry is returned exactly when it exists and is strictly younger than 300000 ms |
| ProbeCache.Cleanup | app/api/check-url/route.ts:17-24 | the sweep keeps exactly the entries whose age is at most the TTL, with unchanged values |
| ProbeCache.CleanupInvisibleToLookup | app/api/check-url/route.ts:41-52 | every read answers the same before and after a sweep |
| ProbeCache.EntryAtTtlIsNeitherReadNorEvicted | app/api/check-url/route.ts:20-52 | an entry exactly TTL old is not readable, yet the sweep keeps it unchanged |
| ProbeCache.TtlWindow | app/api/check-url/route.ts:14-52 | an entry written at t0 is served at t0 + TTL − 1 and not at t0 + TTL + 1, when the sweep also drops it |
| ProbeCache.JitteredResponseTime | app/api/check-url/route.ts:54-55 | the replayed latency is at least 10; it is 10 or within (0.9c − 1, 1.1c] of the cached c; it is surely inside that band when 0.9c − 1 ≥ 10, and surely 10 when 1.1c < 10 |
| ProbeCache.Shift | app/api/check-url/route.ts:54-55 | the cached time moved by floor(r·2v − v), v = 10% of it, lies in (0.9c − 1, 1.1c] |
| ProbeCache.ReplayedVerdict | app/api/check-url/route.ts:58 | the replayed status equals the cached one exactly when the draw exceeds 0.02 (otherwise it is the opposite) |
| ProbeCache.FallbackVerdict | app/api/check-url/route.ts:115-117 | the invented verdict is UP exactly when the draw exceeds 0.4; UP comes with a latency in [100, 600) and DOWN with none |
| ProbeCache.Serve | app/api/check-url/route.ts:47-134 | a hit replays a jittered, rarely flipped verdict with code 200/500; a miss answers UP exactly when `response.ok`, with the measured latency and code; a failed probe gives a simulated verdict with its error; every path writes its answer into the cache (0 for no latency) and touches no other key |
| ProbeCache.EntryFor | app/api/check-url/route.ts:118-124 | the cache entry carries the answer's verdict and time, and its latency, or 0 when the latency is null |
| ProbeCache.Handle | app/api/check-url/route.ts:26-45 | a 400 happens exactly for an unreadable body, a missing or empty `url`, or one that does not parse; the cache is then untouched; otherwise only the requested key is written, and no unexpired entry is lost; any other entry survives exactly when the sweep draw is at least 0.1 or the entry is unexpired |
| ProbeCache.OutcomeOf | hooks/use-real-time-monitoring.ts:45-51 | a client sees a failed request exactly for an error reply, and otherwise the reply's verdict and latency |
| Dashboard.EntryOf | app/page.tsx:243-280 | the logged entry carries the answer's verdict and latency, or DOWN without latency for a failed check |
| Dashboard.Record | app/page.tsx:250-264 | the new history is the old one plus the new entry, cut to its newest 1000, in order; the status and latency come from the new entry; the URL stays well formed (history ≤ 1000 and uptime derived from it) |
| Dashboard.FailedCheckRecordsDown | app/page.tsx:276-296 | a failed check sets DOWN, null latency, and logs a DOWN entry without latency |
| Dashboard.RecordFullHistoryDropsOldest | app/page.tsx:250 | a full history loses exactly its oldest entry |
| Dashboard.RecordResult | app/page.tsx:239-268 | only entries with the checked id change; ids and URLs are unchanged |
| Dashboard.LateResultChangesNothing | app/page.tsx:239-268 | a result for an id no longer listed leaves the list unchanged |
| Dashboard.RecordResultKeepsWellFormed | app/page.tsx:250-255 | recording keeps every URL well formed |
| Dashboard.Fresh | app/page.tsx:124-132 | a new URL carries the given id, URL and time; it is CHECKING with null latency, an empty history and uptime 0 |
| Dashboard.AddUrl | app/page.tsx:103-134 | adding is refused exactly for blank input, a non-http(s) or unparsable URL, or a URL already listed; otherwise one fresh entry is put in front |
| Dashboard.AddUrlKeepsUrlsUnique | app/page.tsx:118-134 | adding keeps URL strings unique |
| Dashboard.WithoutId | app/page.tsx:338 | removal drops exactly the entries with the id, keeps the others, and is the identity when no entry has the id |
| Dashboard.WithoutIdAppend | app/page.tsx:338 | removal keeps order (it distributes over concatenation) |
| Dashboard.AddThenRemove | app/page.tsx:337-340 | adding under a new id and removing that id restores the list |
| Dashboard.BulkLines | app/page.tsx:143-146 | bulk lines are non-empty and contain no line feed; a text is a bulk line exactly when it is a non-empty trimmed piece of the input split at line feeds |
| Dashboard.Trims | app/page.tsx:145 | the pieces are trimmed one by one: same count, the i-th result is the trim of the i-th piece |
| Dashboard.TrimsAppend | app/page.tsx:145 | trimming keeps order (it distributes over concatenation) |
| Dashboard.TrimsKeep | app/page.tsx:144-145 | trimming pieces that lack a character never introduces it |
| Dashboard.NonEmpty | app/page.tsx:146 | `filter(url => url.length > 0)` keeps exactly the non-empty pieces; one piece is kept exactly when it is non-empty |
| Dashboard.NonEmptyAppend | app/page.tsx:146 | the filter keeps order and multiplicity (it distributes over concatenation) |
| Dashboard.TwoLines | app/page.tsx:143-146 | a URL typed on two lines gives two identical bulk lines |
| Dashboard.Accepted | app/page.tsx:161-184 | accepted lines are valid http(s) URLs not listed before, pairwise distinct, and cover every such line; a single line is accepted exactly when it is a valid http(s) URL not listed before |
| Dashboard.SelectValid | app/page.tsx:169-170 | every selected line is one of the input lines, a valid http(s) URL, and not listed before |
| Dashboard.SelectDistinct | app/page.tsx:169-180 | no line is selected twice |
| Dashboard.SelectCovers | app/page.tsx:169-180 | every valid http(s) line not listed before is selected |
| Dashboard.SelectAppend | app/page.tsx:161-184 | selecting from two blocks of lines selects from the first, then from the second with the first block's picks counted as listed |
| Dashboard.AcceptedAppend | app/page.tsx:161-184 | accepted lines keep input order: the lines of a + b accepted are those of a, then those of b not listed and not accepted from a |
| Dashboard.AcceptedAsWritten | app/page.tsx:169-180 | the selection as written: valid http(s) URLs not already listed, covering every such line, at most one per line; a single line is taken exactly when it is a valid http(s) URL not listed before |
| Dashboard.AcceptedAsWrittenAppend | app/page.tsx:169-180 | as written, the selection of a + b is the selection of a followed by that of b, both against the URLs listed before: order and repeats are kept |
| Dashboard.Invalid | app/page.tsx:161-184 | the lines collected as invalid are exactly those that do not parse or are not http(s) |
| Dashboard.BulkMessage | app/page.tsx:186-194 | the error line is cleared exactly when some URL was added; it is left alone exactly when nothing was added and nothing was invalid; otherwise it lists the first min(n, 5) invalid lines in order, with "..." exactly when there are more than five |
| Dashboard.FreshAll | app/page.tsx:171-179 | every accepted URL gets one fresh entry, in order |
| Dashboard.AddBulkUrls | app/page.tsx:140-191 | a bulk add is refused exactly for blank input, no lines, or more than 50 lines; otherwise the new entries are put in front, and each is CHECKING, http(s) and not listed before; every acceptable line is added; the URLs added are exactly the accepted lines, in order |
| Dashboard.BulkAdded | app/page.tsx:169-179 | for any selection of valid, unlisted lines that covers every acceptable one: the new entries carry exactly the selected URLs in order, at most one per line; each is CHECKING, with an empty history, http(s), and not listed before; every acceptable line is among them |
| Dashboard.AddBulkUrlsKeepsUrlsUnique | app/page.tsx:169-191 | the corrected bulk add keeps URL strings unique |
| Dashboard.AddBulkUrlsAsWritten | app/page.tsx:140-191 | the bulk add as written: the same refusals; new entries in front, at most one per line, each CHECKING with an empty history, http(s) and not listed before; every acceptable line added; the invalid lines are exactly those that are not http(s); the URLs added are the as-written selection, repeats included |
| Dashboard.TakesBothCopies | app/page.tsx:169-180 | as written, a valid URL on two lines, with nothing listed, is selected twice |
| Dashboard.AddBulkUrlsAsWrittenDuplicates | app/page.tsx:169-180 | as written, the same URL on two lines is listed twice |
| Dashboard.MarkChecking | app/page.tsx:215-225 | only the entry with the id shows CHECKING; ids are unchanged |
| Dashboard.StartCheck | app/page.tsx:207-225 | a check is refused exactly when its id is in flight; otherwise the id joins the in-flight set |
| Dashboard.FinishCheck | app/page.tsx:239-304 | completion records the result and releases the in-flight mark, on success and on failure |
| Dashboard.CheckSingleUrl | app/page.tsx:205-305 | a check of an id in flight changes nothing; otherwise the result is recorded and the in-flight set is as before |
| Dashboard.UptimeOfOne | app/page.tsx:253-255 | the uptime of a one-entry history is 100 when that entry is UP and 0 otherwise |
| Dashboard.FirstRecord | app/page.tsx:250-264 | the first result recorded for a URL with no history gives a one-entry history and an uptime of 100 or 0 |
| Dashboard.FirstCheck | app/page.tsx:205-268 | the first check of an entry with no history, not in flight, leaves it with exactly that result as its history and the result's status |
| Dashboard.RecordNewHead | app/page.tsx:134-137 | recording a result for the entry just put in front, whose id is new, changes only that entry |
| Dashboard.RecordResultAppend | app/page.tsx:239-268 | recording distributes over concatenation: each part of the list is recorded on its own |
| Dashboard.RecordResultOne | app/page.tsx:239-268 | recording into a one-entry list with that entry's id records into the entry |
| Dashboard.AddThenCheck | app/page.tsx:124-137 | a URL added from the single form and then checked is at the head of the list, holds exactly that check as its history and status, and the URLs already listed are untouched |
| Dashboard.NoDuplicateConcurrentChecks | app/page.tsx:207-211 | while one check of an id is in flight, a second does not start |
| Dashboard.RemovedWhileInFlight | app/page.tsx:337-340 | a result arriving after its URL was removed changes nothing |
| Dashboard.RemoveUrl | app/page.tsx:337-340 | removal leaves no entry with the id and clears its in-flight mark |
| Dashboard.PlanCheckAll | app/page.tsx:318-327 | the loop's steps equal the reference schedule: windows of five, a pause only between windows |
| Dashboard.ScheduleFrom | app/page.tsx:319-327 | one loop turn: the slice of at most five, then a pause and the rest only when more URLs follow |
| Dashboard.ScheduleCoversInOrder | app/page.tsx:319-322 | every URL is probed exactly once, in input order |
| Dashboard.ScheduleShape | app/page.tsx:318-327 | windows and pauses alternate, starting and ending with a window; all windows but the last hold five, the last holds one to five |
| Dashboard.TwelveUrlsMakeThreeWindows | app/page.tsx:318-327 | twelve URLs give windows of 5, 5 and 2 with two pauses |
| Dashboard.CheckAllUrls | app/page.tsx:307-335 | "check all" does nothing while running or with no URLs; otherwise the flag ends cleared, with ids, URLs and in-flight set unchanged, and (for distinct ids) each URL ends with its own result recorded, or CHECKING when a check of it was already in flight |
| Dashboard.CheckAllRecords | app/page.tsx:315-322 | after marking all CHECKING and checking every id once, each URL holds its recorded result, or stays CHECKING when its id was in flight |
| Dashboard.MarkAll | app/page.tsx:315 | same length; each URL is the old one with only its status set to CHECKING |
| Dashboard.RecordIgnoresStatus | app/page.tsx:250-264 | recording a result does not depend on the status shown before, so the CHECKING mark is overwritten |
| Dashboard.CheckEach | app/page.tsx:319-322 | checking one after another keeps ids, URLs, in-flight set and flag |
| Dashboard.CheckSteps | app/page.tsx:319-327 | running the windows and pauses of the schedule checks exactly the probed ids, in order |
| Dashboard.ScheduledChecksVisitEachId | app/page.tsx:318-327 | running the windows of five of the schedule checks every URL once, in list order, as checking the ids one after another does |
| Dashboard.CheckEachAppend | app/page.tsx:319-322 | checking a list of ids is checking its first part, then its second |
| Dashboard.CheckEachRecords | app/page.tsx:207-268 | with distinct ids, each URL whose id is checked and not in flight gets its result recorded, and every other URL is unchanged |
| Dashboard.CountStatus | app/page.tsx:362-363 | a status count is at most the number of URLs; it is 0 exactly when no URL has the status and the whole list exactly when all have it; a single URL counts 1 or 0 |
| Dashboard.CountStatusAppend | app/page.tsx:362-363 | the count distributes over concatenation |
| Dashboard.CountStatusesBound | app/page.tsx:362-363 | the UP and DOWN counts together are at most the number of URLs (the rest are CHECKING) |
| Dashboard.TruthyTimes | app/page.tsx:365-368 | the averaged latencies are positive, at most one per URL; one URL contributes its latency exactly when it is present and non-zero |
| Dashboard.TruthyTimesAppend | app/page.tsx:365-368 | the filter keeps order and multiplicity (it distributes over concatenation) |
| Dashboard.TruthyTimesMembers | app/page.tsx:365-368 | a value is averaged exactly when it is non-zero and some URL has it as latency |
| Dashboard.SummaryOf | app/page.tsx:360-371 | total, UP and DOWN counts; the average is 0 without truthy latencies; otherwise it is their mean rounded (within half a unit) and lies between their minimum and maximum |
| Scheduler.ResultOf | hooks/use-real-time-monitoring.ts:49-70 | an answer gives its verdict and latency; a failure gives DOWN with null latency |
| Scheduler.PriorStatus | hooks/use-real-time-monitoring.ts:36 | the old status is the tracked one if present, else the URL's own |
| Scheduler.CheckUrl | hooks/use-real-time-monitoring.ts:35-72 | the tracker holds the new status for the id and is unchanged elsewhere; a change is reported exactly when old ≠ new, carrying id, old, new and latency |
| Scheduler.DownAfterUpNotifiesOnce | hooks/use-real-time-monitoring.ts:54-59 | UP→DOWN raises one change; a second DOWN raises none |
| Scheduler.Jobs | hooks/use-real-time-monitoring.ts:75-78 | a cycle checks at most one job per URL, each an enabled URL; one URL gives its job exactly when it is enabled |
| Scheduler.JobsAppend | hooks/use-real-time-monitoring.ts:75-78 | the filter keeps list order (it distributes over concatenation) |
| Scheduler.JobsPairOutcomes | hooks/use-real-time-monitoring.ts:75-80 | every job is an enabled URL of the list paired with its own outcome |
| Scheduler.JobsCoverEnabled | hooks/use-real-time-monitoring.ts:77-80 | every enabled URL is checked, with its own outcome |
| Scheduler.JobsEmpty | hooks/use-real-time-monitoring.ts:75-78 | a cycle checks nothing exactly when no URL is enabled |
| Scheduler.Changes | hooks/use-real-time-monitoring.ts:57-59 | a cycle reports at most one change per check, and every reported change is a real transition |
| Scheduler.ChangeOf | hooks/use-real-time-monitoring.ts:56-59 | one check reports at most one change; it reports one exactly when the prior status differs from the result, and that change carries the id, the prior status, the new verdict and the latency |
| Scheduler.ChangesReportTransitions | hooks/use-real-time-monitoring.ts:57-59 | every transition of a cycle is reported, with its id, old and new status and latency |
| Scheduler.ChangesAreTransitions | hooks/use-real-time-monitoring.ts:36-59 | every reported change is the transition of one checked URL from its prior status to its result |
| Scheduler.Track | hooks/use-real-time-monitoring.ts:54 | after a cycle the tracker holds exactly the old ids and the checked ones; unchecked ids keep their status |
| Scheduler.TrackEachId | hooks/use-real-time-monitoring.ts:54 | with distinct ids, each checked id ends up tracked with its new status |
| Scheduler.CountResults | hooks/use-real-time-monitoring.ts:84-91 | a verdict count is at most the number of results; it is 0 exactly when no result has the verdict and all of them exactly when every result has it; a single result counts 1 or 0 |
| Scheduler.CountResultsAppend | hooks/use-real-time-monitoring.ts:84-91 | the count distributes over concatenation |
| Scheduler.CountResultsPartition | hooks/use-real-time-monitoring.ts:83-85 | UP and DOWN results add up to the number of checks |
| Scheduler.Results | hooks/use-real-time-monitoring.ts:80 | one result per checked URL, in order, each the verdict and latency of that URL's own check |
| Scheduler.PresentTimes | hooks/use-real-time-monitoring.ts:86-88 | at most one latency per result; one result contributes exactly when its latency is non-null |
| Scheduler.PresentTimesAppend | hooks/use-real-time-monitoring.ts:86-88 | the filter keeps order and multiplicity (it distributes over concatenation) |
| Scheduler.PresentTimesMembers | hooks/use-real-time-monitoring.ts:86-88 | a value is averaged exactly when some result has it as latency; none is exactly when all are null |
| Scheduler.SampleOf | hooks/use-real-time-monitoring.ts:83-101 | total = checks; successful = up = #UP; failed = down = #DOWN; the average is 0 without latencies and otherwise between their minimum and maximum |
| Scheduler.SampleOfRounds | hooks/use-real-time-monitoring.ts:86-98 | the sample's average is the sum of the non-null latencies divided by `Math.max(count, 1)`, rounded to within half a unit |
| Scheduler.Cycle | hooks/use-real-time-monitoring.ts:74-108 | with no enabled URL nothing happens; otherwise the cycle's changes are reported, its answers tracked, and the sample of its results appended to the ring, which keeps the newest 50 |
| Scheduler.PushSample | hooks/use-real-time-monitoring.ts:103-107 | the ring grows by one up to 50 samples and then stays at 50; it is the newest samples of the old ring followed by the new one, which is last |
| Scheduler.StartFrom | hooks/use-real-time-monitoring.ts:110-120 | a start that sees Running does nothing; otherwise it sets Running, runs one cycle at once (its changes and its monitor), and arms the timer |
| Scheduler.Start | hooks/use-real-time-monitoring.ts:110-120 | starting a running monitor changes nothing; a stopped one runs one cycle at once, reports that cycle's changes, and ends Running with the new timer |
| Scheduler.StartIdempotent | hooks/use-real-time-monitoring.ts:111 | starting twice equals starting once |
| Scheduler.Stop | hooks/use-real-time-monitoring.ts:122-129 | stopping leaves the monitor not Running with no timer, and keeps the tracker and samples |
| Scheduler.RestartAsWritten | hooks/use-real-time-monitoring.ts:131-137 | the interval-change effect as written does nothing to a stopped monitor |
| Scheduler.RestartAsWrittenStops | hooks/use-real-time-monitoring.ts:131-137 | as written, a running monitor whose interval changes ends stopped with no timer |
| Scheduler.Restart | hooks/use-real-time-monitoring.ts:131-137 | corrected: a running monitor stays Running on the new timer; a stopped one is unchanged |
| Scheduler.InitTracking | hooks/use-real-time-monitoring.ts:149-155 | initialisation tracks every listed id and never overwrites a tracked one |
| Scheduler.InitTrackingKeys | hooks/use-real-time-monitoring.ts:149-155 | after initialisation the tracked ids are exactly the old ones and the listed ones |
| Scheduler.InitTrackingFirstWins | hooks/use-real-time-monitoring.ts:150-153 | an id not yet tracked takes the status of the first URL listed with it |
| Scheduler.InitTrackingIdempotent | hooks/use-real-time-monitoring.ts:149-155 | initialising twice with the same list equals once |
| Registry.IndexOfId | app/api/urls/route.ts:100 | `findIndex` finds the first record with the id, or none exactly when no record has it |
| Registry.Post | app/api/urls/route.ts:23-47 | 400 exactly for an unreadable body or a missing/empty `url`; 409 exactly for a listed URL; both leave the list unchanged; a record is created exactly for a new non-empty URL, and it is one CHECKING record with the id, null latency, uptime 0 and empty history, appended |
| Registry.PostKeepsUrlsUnique | app/api/urls/route.ts:31-35 | adding keeps URLs unique |
| Registry.PostKeepsIdsUnique | app/api/urls/route.ts:37-47 | adding under an id no record has keeps ids unique |
| Registry.InitialCheck | app/api/urls/route.ts:61-80 | the result applies only when the request succeeded and the id is listed; then the first record with it takes the answer's status, latency and time, a one-entry history, and uptime equal to that history's (100 if UP, else 0); the others are unchanged |
| Registry.InitialCheckKeepsUrls | app/api/urls/route.ts:66-79 | the initial check never changes the listed URLs |
| Registry.Delete | app/api/urls/route.ts:92-107 | 400 exactly without an id; 404 exactly for an unknown id; a deletion happens exactly for a known id, and removes exactly the first record with it |
| Registry.DeleteKeepsUrlsUnique | app/api/urls/route.ts:100-105 | deleting keeps URLs unique |
| Registry.DeleteKeepsIdsUnique | app/api/urls/route.ts:100-107 | deleting keeps ids unique, and with unique ids no record with the deleted id remains |
| Registry.PostThenDelete | app/api/urls/route.ts:92-105 | adding a new URL under a new id and deleting that id restores the list |
| UrlMetrics.RangeMs | components/url-metrics.tsx:58-64 | windows of 24 h, 7 d and 30 d in milliseconds |
| UrlMetrics.FilterHistory | components/url-metrics.tsx:53-68 | the window keeps exactly the checks at most its width old, and everything when all are |
| UrlMetrics.FilterHistoryAppend | components/url-metrics.tsx:53 | filtering keeps order (it distributes over concatenation) |
| UrlMetrics.NarrowerWindowWins | components/url-metrics.tsx:58-64 | the 24 h view of a wider window's checks is the 24 h view |
| UrlMetrics.KnownTimes | components/url-metrics.tsx:77-79 | at most one latency per check; one check contributes exactly when its latency is non-null |
| UrlMetrics.KnownTimesAppend | components/url-metrics.tsx:77-79 | the filter keeps order and multiplicity (it distributes over concatenation) |
| UrlMetrics.KnownTimesMembers | components/url-metrics.tsx:77-79 | a value is aggregated exactly when some check has it as latency; none is exactly when all are null |
| UrlMetrics.Bonus | components/url-metrics.tsx:89 | the bonus is 30 exactly below 500 ms, 10 exactly from 1000 ms, and 20 in between |
| UrlMetrics.Reliability | components/url-metrics.tsx:88-90 | the score is 0 without checks; with checks it is uptime × 0.7 plus the bonus, rounded to within half a unit, at least the bonus; always in [0, 100] |
| UrlMetrics.ReliabilityMonotone | components/url-metrics.tsx:88-90 | a higher uptime never lowers the score |
| UrlMetrics.ReliabilityExtremes | components/url-metrics.tsx:88-90 | full uptime with fast responses scores 100; zero uptime scores the bare bonus |
| UrlMetrics.LatencyOf | components/url-metrics.tsx:77-85 | without latencies all figures are 0; otherwise the average is their sum over their count, min and max are among them and bound every one, and the average lies between them |
| UrlMetrics.MetricsOf | components/url-metrics.tsx:71-90 | counts and uptime of the window; successful + failed = total; the average is the mean of the known latencies, min ≤ avg ≤ max with min and max among them, and all 0 without any; the score is the reliability of these figures, in [0, 100] |
| UrlMetrics.AddTag | components/url-metrics.tsx:106-113 | the trimmed tag is appended only when non-empty and new; the old tags stay in front; tags stay duplicate-free |
| UrlMetrics.RemoveTag | components/url-metrics.tsx:115-119 | removal drops every occurrence and keeps every other tag |
| UrlMetrics.RemoveTagAppend | components/url-metrics.tsx:117 | removal keeps order (it distributes over concatenation) |
| UrlMetrics.AddThenRemoveTag | components/url-metrics.tsx:106-119 | removing a just-added tag restores the tags |
| Notifications.UnreadCount | components/notification-center.tsx:24 | the count is 0 exactly when all are read, and the length exactly when none is; one notification counts exactly when unread |
| Notifications.UnreadCountAppend | components/notification-center.tsx:24 | the count of a concatenation is the sum of the counts |
| Notifications.MarkAsRead | components/notification-center.tsx:26-30 | only notifications with the id become read; everything else is unchanged |
| Notifications.MarkAsReadCount | components/notification-center.tsx:24-30 | marking read lowers the unread count by the unread notifications with that id |
| Notifications.MarkAsReadIdempotent | components/notification-center.tsx:26-30 | marking read twice equals once |
| Notifications.MarkAllAsRead | components/notification-center.tsx:32-34 | same length and order, all read, unread count 0 |
| Notifications.MarkAsReadAfterMarkAll | components/notification-center.tsx:26-34 | after marking all read, marking one changes nothing |
| Notifications.RemoveNotification | components/notification-center.tsx:36-38 | removal drops exactly the notifications with the id and keeps the rest |
| Notifications.RemoveNotificationAppend | components/notification-center.tsx:37 | removal keeps order (it distributes over concatenation) |
| Notifications.ClearAll | components/notification-center.tsx:40-42 | clearing leaves nothing, and nothing unread |
| Notifications.BadgeOf | components/notification-center.tsx:83-89 | the badge is hidden exactly when nothing is unread, "99+" exactly above 99, and otherwise shows the count |
| Notifications.BadgeLabel | components/notification-center.tsx:87 | the shown text is "99+" or the count in decimal |
| Notifications.DecimalString | components/notification-center.tsx:87 | a count renders as decimal digits with no leading zero |
| Notifications.DecimalRoundTrip | components/notification-center.tsx:87 | reading the rendered count back gives the count |
| Notifications.BadgeLabelFits | components/notification-center.tsx:87 | a shown badge never has more than three characters |

## Left out

- Network I/O: the HEAD probe, its 10-second abort, and the client and server requests to `/api/check-url`. They appear only as their outcomes.
- Timers and concurrency: `setTimeout`, `setInterval`, the 1-second pause between windows, the 500 ms spacing of bulk checks, and the interleaving of `Promise.all`. "Check all" is modelled as its schedule plus the checks applied one after another. A cycle reads every prior status first and writes the answers in list order.
- React state scheduling and `localStorage` persistence, other than the stale closure behind the second finding.
- Floating point: uptime, averages and the score use exact reals, so no rounding error of JavaScript numbers is modelled.
- The unreachable outer error branch of the probe endpoint (app/api/check-url/route.ts:135-145). Every call inside it is total in the model.
- `Registry.InitialCheck`: an error reply from the probe endpoint (a 400, whose `status` is undefined) is modelled as a failed request. The source would instead write a record with an undefined status. The model has no such value.
- `Registry.Post`: the id is a parameter. Two adds in the same millisecond would receive the same `Date.now()` id, which the model does not enforce.
- `Text.Trim`: the white-space set is the ECMAScript WhiteSpace and LineTerminator code points listed in the model. Characters outside the Basic Multilingual Plane are not considered.
- Scheduler.SampleOf: its own contract states the counts and the min/max bounds of the average. The rounding of the mean is stated by `Scheduler.SampleOfRounds`, kept apart so that the cycle's proofs stay small.
- Text.Trim: its own contract does not say that the result is a slice of the input. `Text.TrimIsSlice` states that.
- Dashboard.CheckEach: its own contract states only what checking keeps. The per-URL result is stated by `Dashboard.CheckEachRecords`, and only for distinct ids.
- Dashboard.CheckAllUrls: the per-URL result is stated only when ids are distinct. With a repeated id, that URL is checked more than once and this is not stated. The checks of one window run one after another.
- Dashboard.Invalid: its contract states which lines are invalid, not their order.
- Dashboard.AddBulkUrls: the result carries the whole invalid list. The text the form shows from it is `Dashboard.BulkMessage`.
- Dashboard.AddBulkUrls: the checks it starts, one per new entry and 500 ms apart, are not part of its result. Each is a `Dashboard.CheckSingleUrl` of a fresh entry, and `Dashboard.FirstCheck` states what that first check leaves. The timing is not modelled.
- Dashboard.AddUrl: the check it starts is not part of its result. `Dashboard.AddThenCheck` states the add followed by that check.
- `Scheduler.Track`: the tracker is stated per id only when ids are distinct (`Scheduler.TrackEachId`). With repeated ids the last check's verdict wins, and this is not stated.
- `ProbeCache.JitteredResponseTime`: the band is stated for the value before `Math.max(10, …)`, as a bound on the floored shift, not the exact distribution.
- The chart components, settings panels, import/export, layout, `next.config.mjs` and the health endpoint are outside the engine.
- Listing URLs (`GET /api/urls`) returns the list unchanged, and is not modelled separately.

## Findings

| source | as written | input that shows it | evidently intended | confidence | as-written member | corrected member |
|---|---|---|---|---|---|---|
| app/page.tsx:169-180 | each bulk line is checked only against URLs already listed, not against earlier lines of the same input | the bulk text "https://a.com\nhttps://a.com" on an empty list | a URL is listed once; later copies in the same input are skipped, as the single form rejects duplicates | high, not executed | Dashboard.AddBulkUrlsAsWrittenDuplicates | Dashboard.AddBulkUrlsKeepsUrlsUnique |
| hooks/use-real-time-monitoring.ts:131-137 | on an interval change the effect calls `stopMonitoring()`, then the `startMonitoring` of the same render, whose closure still reads `isMonitoring` as true, so it returns at once | a running monitor whose interval changes from 5000 to 10000 ms | the monitor keeps running on a timer at the new interval | medium, not executed | Scheduler.RestartAsWrittenStops | Scheduler.Restart |

The as-written bulk add is `Dashboard.AddBulkUrlsAsWritten`. The corrected one is `Dashboard.AddBulkUrls`, which uses `Dashboard.Accepted`. The as-written interval effect is `Scheduler.RestartAsWritten`.

=== FILE: common.dfy ===
/** Shared vocabulary of the URL health monitor: verdicts, display statuses,
    history entries, probe outcomes, and the list and arithmetic helpers that
    several components rely on (bounded suffixes, counting, uptime, sums,
    JavaScript's `Math.round`). */
module Common {

  datatype Option<+T> = None | Some(value: T) {
    /** The carried value, or `default` when there is none (JavaScript's `x || d` on a nullable number). */
    function GetOr(default: T): T {
      if Some? then value else default
    }
  }

  /** What one probe concludes. The probe endpoint only ever answers one of these two. */
  datatype Verdict = Up | Down

  /** The status a monitored URL shows: a settled verdict, or CHECKING while a probe is in flight. */
  datatype Status = Settled(verdict: Verdict) | Checking

  /** The other verdict. */
  function Opposite(v: Verdict): (r: Verdict)
    ensures r != v
  {
    if v == Up then Down else Up
  }

  /** One recorded probe. `timestamp` is in milliseconds since the epoch;
      `responseTime` is absent when the probe produced no latency. */
  datatype HistoryEntry = HistoryEntry(timestamp: int, verdict: Verdict, responseTime: Option<nat>)

  /** What a client sees when it asks the probe endpoint: an answer carrying a
      verdict, or a failed request (a network error or a non-2xx reply). */
  datatype CheckOutcome = Answered(verdict: Verdict, responseTime: Option<nat>) | Failed

  /** The result of `new URL(s)`: a parse failure, or the parsed protocol such as "https:". */
  datatype ParsedUrl = Unparsable | Parsed(protocol: string)

  /** The scheme test both URL forms apply: the string parses and its protocol is http: or https:. */
  predicate IsHttpUrl(parse: string -> ParsedUrl, s: string) {
    parse(s).Parsed? && parse(s).protocol in ["http:", "https:"]
  }

  /** JavaScript's `s.slice(-n)` for n > 0: the last `n` elements, or all of `s` when it is shorter. */
  function TakeLast<T>(s: seq<T>, n: nat): (r: seq<T>)
    requires n > 0
    ensures |r| <= n && |r| <= |s|
    ensures |s| <= n ==> r == s
    ensures |s| > n ==> |r| == n
    ensures r == s[|s| - |r|..]
  {
    if |s| <= n then s else s[|s| - n..]
  }

  /** Number of entries of `h` carrying verdict `v`. */
  function CountVerdict(h: seq<HistoryEntry>, v: Verdict): (c: nat)
    ensures c <= |h|
    ensures c == 0 <==> forall i :: 0 <= i < |h| ==> h[i].verdict != v
    ensures c == |h| <==> forall i :: 0 <= i < |h| ==> h[i].verdict == v
    ensures |h| == 1 ==> c == if h[0].verdict == v then 1 else 0
  {
    if |h| == 0 then 0
    else (if h[0].verdict == v then 1 else 0) + CountVerdict(h[1..], v)
  }

  /** The count distributes over concatenation. */
  lemma {:induction false} CountVerdictAppend(a: seq<HistoryEntry>, b: seq<HistoryEntry>, v: Verdict)
    ensures CountVerdict(a + b, v) == CountVerdict(a, v) + CountVerdict(b, v)
  {
    if |a| == 0 {
      assert a + b == b;
    } else {
      assert (a + b)[1..] == a[1..] + b;
      CountVerdictAppend(a[1..], b, v);
    }
  }

  /** Every entry is UP or DOWN, so the two counts partition the history. */
  lemma {:induction false} CountVerdictPartition(h: seq<HistoryEntry>)
    ensures CountVerdict(h, Up) + CountVerdict(h, Down) == |h|
  {
    if |h| > 0 {
      CountVerdictPartition(h[1..]);
    }
  }

  /** Uptime of a history in percent: 100 * (UP entries) / (entries), and 0 for an empty history. */
  function Uptime(h: seq<HistoryEntry>): (u: real)
    ensures 0.0 <= u <= 100.0
    ensures |h| == 0 ==> u == 0.0
    ensures |h| > 0 ==> u == (CountVerdict(h, Up) as real) / (|h| as real) * 100.0
  {
    Share(CountVerdict(h, Up), |h|)
  }

  /** `part` out of `total` in percent, and 0 when the total is 0. */
  function Share(part: nat, total: nat): (p: real)
    requires part <= total
    ensures 0.0 <= p <= 100.0
    ensures total == 0 ==> p == 0.0
    ensures total > 0 ==> p == (part as real) / (total as real) * 100.0
  {
    if total == 0 then 0.0 else Percent(part, total)
  }

  /** Uptime is 100 exactly when the history is non-empty and every entry is UP,
      and 0 exactly when no entry is UP. */
  lemma UptimeExtremes(h: seq<HistoryEntry>)
    ensures Uptime(h) == 100.0 <==> |h| > 0 && forall i :: 0 <= i < |h| ==> h[i].verdict == Up
    ensures Uptime(h) == 0.0 <==> forall i :: 0 <= i < |h| ==> h[i].verdict != Up
  {
    if |h| > 0 {
      var c := CountVerdict(h, Up);
      assert Uptime(h) == Percent(c, |h|);
      PercentExtremes(c, |h|);
    }
  }

  /** The sum of a list, as `reduce((acc, x) => acc + x, 0)`. */
  function Sum(xs: seq<nat>): (s: nat)
    ensures |xs| == 0 ==> s == 0
    ensures |xs| == 1 ==> s == xs[0]
  {
    if |xs| == 0 then 0 else xs[0] + Sum(xs[1..])
  }

  /** The sum distributes over concatenation. */
  lemma {:induction false} SumAppend(xs: seq<nat>, ys: seq<nat>)
    ensures Sum(xs + ys) == Sum(xs) + Sum(ys)
  {
    if |xs| == 0 {
      assert xs + ys == ys;
    } else {
      assert (xs + ys)[1..] == xs[1..] + ys;
      SumAppend(xs[1..], ys);
    }
  }

  /** `Math.min(...xs)` on a non-empty list. */
  function MinOf(xs: seq<nat>): (m: nat)
    requires |xs| > 0
    ensures m in xs
    ensures forall i :: 0 <= i < |xs| ==> m <= xs[i]
  {
    if |xs| == 1 then xs[0]
    else var rest := MinOf(xs[1..]); if xs[0] <= rest then xs[0] else rest
  }

  /** `Math.max(...xs)` on a non-empty list. */
  function MaxOf(xs: seq<nat>): (m: nat)
    requires |xs| > 0
    ensures m in xs
    ensures forall i :: 0 <= i < |xs| ==> xs[i] <= m
  {
    if |xs| == 1 then xs[0]
    else var rest := MaxOf(xs[1..]); if xs[0] >= rest then xs[0] else rest
  }

  /** A sum of `n` values, each at least `lo`, is at least `n * lo`. */
  lemma {:induction false} SumAtLeast(xs: seq<nat>, lo: nat)
    requires forall i :: 0 <= i < |xs| ==> lo <= xs[i]
    ensures |xs| * lo <= Sum(xs)
  {
    if |xs| > 0 {
      assert forall i :: 0 <= i < |xs| - 1 ==> xs[1..][i] == xs[i + 1];
      SumAtLeast(xs[1..], lo);
      MulSucc(|xs| - 1, lo);
    }
  }

  /** A sum of `n` values, each at most `hi`, is at most `n * hi`. */
  lemma {:induction false} SumAtMost(xs: seq<nat>, hi: nat)
    requires forall i :: 0 <= i < |xs| ==> xs[i] <= hi
    ensures Sum(xs) <= |xs| * hi
  {
    if |xs| > 0 {
      assert forall i :: 0 <= i < |xs| - 1 ==> xs[1..][i] == xs[i + 1];
      SumAtMost(xs[1..], hi);
      MulSucc(|xs| - 1, hi);
    }
  }

  lemma MulSucc(n: nat, x: nat)
    ensures (n + 1) * x == n * x + x
  {
  }

  /** The mean of a non-empty list of latencies lies between their minimum and maximum. */
  lemma MeanBetweenMinMax(xs: seq<nat>)
    requires |xs| > 0
    ensures (MinOf(xs) as real) <= (Sum(xs) as real) / (|xs| as real) <= (MaxOf(xs) as real)
  {
    SumAtLeast(xs, MinOf(xs));
    SumAtMost(xs, MaxOf(xs));
    QuotientAtLeast(Sum(xs), |xs|, MinOf(xs));
    QuotientAtMost(Sum(xs), |xs|, MaxOf(xs));
  }

  /** `part` out of `n` in percent, as JavaScript computes it: `(part / n) * 100`. */
  function Percent(part: nat, n: nat): (p: real)
    requires part <= n && n > 0
    ensures 0.0 <= p <= 100.0
    ensures p * (n as real) == 100.0 * (part as real)
    ensures p == (part as real) / (n as real) * 100.0
  {
    var q := (part as real) / (n as real);
    assert q * (n as real) == part as real;
    assert q <= 1.0;
    q * 100.0
  }

  /** A share is 100% exactly when it is the whole, and 0% exactly when it is nothing. */
  lemma PercentExtremes(part: nat, n: nat)
    requires part <= n && n > 0
    ensures Percent(part, n) == 100.0 <==> part == n
    ensures Percent(part, n) == 0.0 <==> part == 0
  {
    var q := (part as real) / (n as real);
    assert q * (n as real) == part as real;
    if Percent(part, n) == 100.0 || part == n {
      assert q * (n as real) == 1.0 * (n as real);
      assert q == 1.0;
    }
  }

  lemma QuotientAtLeast(s: nat, k: nat, lo: nat)
    requires k > 0 && k * lo <= s
    ensures lo as real <= (s as real) / (k as real)
  {
    var q := (s as real) / (k as real);
    assert q * (k as real) == s as real;
    assert (k * lo) as real == (k as real) * (lo as real);
  }

  lemma QuotientAtMost(s: nat, k: nat, hi: nat)
    requires k > 0 && s <= k * hi
    ensures (s as real) / (k as real) <= hi as real
  {
    var q := (s as real) / (k as real);
    assert q * (k as real) == s as real;
    assert (k * hi) as real == (k as real) * (hi as real);
  }

  /** JavaScript's `Math.round`: the nearest integer, with halves rounded up. */
  function Round(x: real): (r: int)
    ensures r as real - 0.5 <= x < r as real + 0.5
  {
    (x + 0.5).Floor
  }

  /** Rounding never leaves an interval whose ends are integers. */
  lemma RoundBetween(x: real, lo: int, hi: int)
    requires lo as real <= x <= hi as real
    ensures lo <= Round(x) <= hi
  {
  }
}

=== FILE: dashboard.dfy ===
/** The client-side monitor (app/page.tsx): the list of monitored URLs with
    their bounded histories and derived uptime, the add and bulk-add forms,
    the per-id in-flight guard of a single check, "check all" in windows of
    five, removal, and the summary figures above the list.

    Identifiers, the clock and `new URL(...)` are parameters; a check's answer
    from the probe endpoint is the `CheckOutcome` input. */
module Dashboard {
  import opened Common
  import Text

  const MaxHistoryEntries: nat := 1000
  const MaxBulkUrls: nat := 50
  const WindowWidth: nat := 5

  datatype UrlCheck = UrlCheck(id: string, url: string, status: Status, responseTime: Option<nat>,
                               lastChecked: int, history: seq<HistoryEntry>, uptime: real)

  /** What every recorded URL keeps: a history of at most 1000 entries and the uptime derived from it. */
  predicate WellFormed(u: UrlCheck) {
    |u.history| <= MaxHistoryEntries && u.uptime == Uptime(u.history)
  }

  function IdsOf(urls: seq<UrlCheck>): (ids: seq<string>)
    ensures |ids| == |urls| && forall i :: 0 <= i < |urls| ==> ids[i] == urls[i].id
  {
    seq(|urls|, i requires 0 <= i < |urls| => urls[i].id)
  }

  function UrlsOf(urls: seq<UrlCheck>): (us: seq<string>)
    ensures |us| == |urls| && forall i :: 0 <= i < |urls| ==> us[i] == urls[i].url
  {
    seq(|urls|, i requires 0 <= i < |urls| => urls[i].url)
  }

  /** No URL string is monitored twice. */
  predicate UniqueUrls(urls: seq<UrlCheck>) {
    forall i, j :: 0 <= i < j < |urls| ==> urls[i].url != urls[j].url
  }

  // ---------------------------------------------------------------- recording

  /** The history entry a completed check appends: the answer's verdict and
      latency, or DOWN with no latency when the request failed. */
  function EntryOf(outcome: CheckOutcome, now: int): (e: HistoryEntry)
    ensures e.timestamp == now
    ensures outcome.Answered? ==> e.verdict == outcome.verdict && e.responseTime == outcome.responseTime
    ensures outcome.Failed? ==> e.verdict == Down && e.responseTime == None
  {
    match outcome
    case Answered(v, t) => HistoryEntry(now, v, t)
    case Failed => HistoryEntry(now, Down, None)
  }

  /** One URL after a completed check: the new entry appended, the history cut
      to its newest 1000 entries, uptime recomputed, status and latency taken
      from the new entry. */
  function Record(u: UrlCheck, outcome: CheckOutcome, now: int): (r: UrlCheck)
    ensures r.id == u.id && r.url == u.url
    ensures WellFormed(r)
    ensures |r.history| == if |u.history| < MaxHistoryEntries then |u.history| + 1 else MaxHistoryEntries
    ensures r.history == (u.history + [EntryOf(outcome, now)])[|u.history| + 1 - |r.history|..]
    ensures r.history[|r.history| - 1] == EntryOf(outcome, now)
    ensures r.status == Settled(EntryOf(outcome, now).verdict)
    ensures r.responseTime == EntryOf(outcome, now).responseTime && r.lastChecked == now
  {
    var history := TakeLast(u.history + [EntryOf(outcome, now)], MaxHistoryEntries);
    var e := EntryOf(outcome, now);
    u.(status := Settled(e.verdict), responseTime := e.responseTime, lastChecked := now,
       history := history, uptime := Uptime(history))
  }

  /** A failed check shows DOWN with no latency and logs a DOWN entry without latency. */
  lemma FailedCheckRecordsDown(u: UrlCheck, now: int)
    ensures Record(u, Failed, now).status == Settled(Down)
    ensures Record(u, Failed, now).responseTime == None
    ensures Record(u, Failed, now).history[|Record(u, Failed, now).history| - 1] == HistoryEntry(now, Down, None)
  {
  }

  /** A history that is already full stays full and loses exactly its oldest entry. */
  lemma RecordFullHistoryDropsOldest(u: UrlCheck, outcome: CheckOutcome, now: int)
    requires |u.history| == MaxHistoryEntries
    ensures Record(u, outcome, now).history == u.history[1..] + [EntryOf(outcome, now)]
  {
    var full := u.history + [EntryOf(outcome, now)];
    assert full[1..] == u.history[1..] + [EntryOf(outcome, now)];
  }

  /** Recording into the list: only entries with the checked id change. */
  function RecordResult(urls: seq<UrlCheck>, id: string, outcome: CheckOutcome, now: int): (r: seq<UrlCheck>)
    ensures |r| == |urls| && IdsOf(r) == IdsOf(urls) && UrlsOf(r) == UrlsOf(urls)
    ensures forall i :: 0 <= i < |urls| && urls[i].id != id ==> r[i] == urls[i]
    ensures forall i :: 0 <= i < |urls| && urls[i].id == id ==> r[i] == Record(urls[i], outcome, now)
  {
    seq(|urls|, i requires 0 <= i < |urls| => if urls[i].id == id then Record(urls[i], outcome, now) else urls[i])
  }

  /** A result for an id that is no longer listed (removed while its check was in flight) changes nothing. */
  lemma LateResultChangesNothing(urls: seq<UrlCheck>, id: string, outcome: CheckOutcome, now: int)
    requires id !in IdsOf(urls)
    ensures RecordResult(urls, id, outcome, now) == urls
  {
    assert forall i :: 0 <= i < |urls| ==> urls[i].id != id by {
      forall i | 0 <= i < |urls| ensures urls[i].id != id {
        assert IdsOf(urls)[i] == urls[i].id;
      }
    }
  }

  /** Recording keeps every URL of the list well formed. */
  lemma RecordResultKeepsWellFormed(urls: seq<UrlCheck>, id: string, outcome: CheckOutcome, now: int)
    requires forall i :: 0 <= i < |urls| ==> WellFormed(urls[i])
    ensures forall i :: 0 <= i < |urls| ==> WellFormed(RecordResult(urls, id, outcome, now)[i])
  {
  }

  // ------------------------------------------------------------------ adding

  /** A URL as it is first listed: CHECKING, no latency, no history, 0% uptime. */
  function Fresh(id: string, url: string, now: int): (u: UrlCheck)
    ensures u.id == id && u.url == url && u.lastChecked == now
    ensures u.status == Checking && u.responseTime == None
    ensures WellFormed(u) && u.history == [] && u.uptime == 0.0
  {
    UrlCheck(id, url, Checking, None, now, [], 0.0)
  }

  datatype AddError = Blank | InvalidUrl | NotHttp | AlreadyListed

  datatype AddResult = Added(urls: seq<UrlCheck>) | Rejected(reason: AddError)

  /** The single-URL form. The input is used as typed (only the blank test trims it). */
  function AddUrl(urls: seq<UrlCheck>, input: string, parse: string -> ParsedUrl, id: string, now: int): (r: AddResult)
    ensures r.Rejected? <==> Text.Trim(input) == [] || !IsHttpUrl(parse, input) || input in UrlsOf(urls)
    ensures r.Rejected? && r.reason == AlreadyListed ==> input in UrlsOf(urls)
    ensures r.Added? ==> r.urls == [Fresh(id, input, now)] + urls
  {
    if Text.Trim(input) == [] then Rejected(Blank)
    else if parse(input).Unparsable? then Rejected(InvalidUrl)
    else if !IsHttpUrl(parse, input) then Rejected(NotHttp)
    else if input in UrlsOf(urls) then Rejected(AlreadyListed)
    else Added([Fresh(id, input, now)] + urls)
  }

  /** Adding never lists a URL string twice. */
  lemma AddUrlKeepsUrlsUnique(urls: seq<UrlCheck>, input: string, parse: string -> ParsedUrl, id: string, now: int)
    requires UniqueUrls(urls)
    ensures AddUrl(urls, input, parse, id, now).Added? ==> UniqueUrls(AddUrl(urls, input, parse, id, now).urls)
  {
    if AddUrl(urls, input, parse, id, now).Added? {
      ConcatKeepsUrlsUnique([Fresh(id, input, now)], urls);
    }
  }

  lemma ConcatKeepsUrlsUnique(front: seq<UrlCheck>, urls: seq<UrlCheck>)
    requires UniqueUrls(front) && UniqueUrls(urls)
    requires forall i :: 0 <= i < |front| ==> front[i].url !in UrlsOf(urls)
    ensures UniqueUrls(front + urls)
  {
    var all := front + urls;
    var n := |front|;
    forall i, j | 0 <= i < j < |all| ensures all[i].url != all[j].url {
      if j < n {
        assert all[i] == front[i] && all[j] == front[j];
      } else if i < n {
        assert all[j].url == UrlsOf(urls)[j - n];
      } else {
        assert all[i] == urls[i - n] && all[j] == urls[j - n];
      }
    }
  }

  // ----------------------------------------------------------------- removing

  /** The list without the entries carrying `id`, the others in their order. */
  function WithoutId(urls: seq<UrlCheck>, id: string): (r: seq<UrlCheck>)
    ensures |r| <= |urls|
    ensures forall i :: 0 <= i < |r| ==> r[i].id != id && r[i] in urls
    ensures forall u :: u in urls && u.id != id ==> u in r
    ensures (forall i :: 0 <= i < |urls| ==> urls[i].id != id) ==> r == urls
  {
    if |urls| == 0 then []
    else
      var rest := WithoutId(urls[1..], id);
      assert urls == [urls[0]] + urls[1..];
      if urls[0].id == id then rest else [urls[0]] + rest
  }

  /** Removal keeps the relative order: it distributes over concatenation. */
  lemma {:induction false} WithoutIdAppend(a: seq<UrlCheck>, b: seq<UrlCheck>, id: string)
    ensures WithoutId(a + b, id) == WithoutId(a, id) + WithoutId(b, id)
  {
    if |a| > 0 {
      assert (a + b)[1..] == a[1..] + b;
      WithoutIdAppend(a[1..], b, id);
    } else {
      assert a + b == b;
    }
  }

  /** Adding a URL under a fresh id and removing that id restores the list. */
  lemma AddThenRemove(urls: seq<UrlCheck>, input: string, parse: string -> ParsedUrl, id: string, now: int)
    requires id !in IdsOf(urls)
    ensures AddUrl(urls, input, parse, id, now).Added? ==> WithoutId(AddUrl(urls, input, parse, id, now).urls, id) == urls
  {
    var r := AddUrl(urls, input, parse, id, now);
    if r.Added? {
      assert r.urls[1..] == urls;
      assert forall i :: 0 <= i < |urls| ==> urls[i].id != id by {
        forall i | 0 <= i < |urls| ensures urls[i].id != id {
          assert IdsOf(urls)[i] == urls[i].id;
        }
      }
    }
  }

  // --------------------------------------------------------------- bulk adding

  /** The bulk form's lines: the input split at line feeds, each piece
      trimmed, the empty ones dropped, the rest in input order. */
  function BulkLines(text: string): (lines: seq<string>)
    ensures forall i :: 0 <= i < |lines| ==> lines[i] != [] && '\n' !in lines[i]
    ensures forall l :: l in lines <==> l != [] && l in Trims(Text.Split(text, '\n'))
  {
    var pieces := Trims(Text.Split(text, '\n'));
    TrimsKeep(Text.Split(text, '\n'), '\n');
    var lines := NonEmpty(pieces);
    assert forall i :: 0 <= i < |lines| ==> lines[i] in pieces;
    lines
  }

  /** Trimming introduces no character. */
  lemma TrimsKeep(parts: seq<string>, c: char)
    requires forall i :: 0 <= i < |parts| ==> c !in parts[i]
    ensures forall l :: l in Trims(parts) ==> c !in l
  {
    forall l | l in Trims(parts) ensures c !in l {
      var k :| 0 <= k < |parts| && Trims(parts)[k] == l;
      TrimKeeps(parts[k], c);
    }
  }

  /** Each piece trimmed. */
  function Trims(parts: seq<string>): (ts: seq<string>)
    ensures |ts| == |parts| && forall i :: 0 <= i < |parts| ==> ts[i] == Text.Trim(parts[i])
  {
    if |parts| == 0 then []
    else
      var rest := Trims(parts[1..]);
      assert forall i :: 1 <= i < |parts| ==> parts[i] == parts[1..][i - 1];
      [Text.Trim(parts[0])] + rest
  }

  /** The non-empty strings of a list, in order. */
  function NonEmpty(ts: seq<string>): (r: seq<string>)
    ensures |r| <= |ts|
    ensures forall l :: l in r <==> l in ts && l != []
    ensures |ts| == 1 ==> r == if ts[0] == [] then [] else ts
  {
    if |ts| == 0 then []
    else
      var rest := NonEmpty(ts[1..]);
      assert forall l :: l in ts <==> l == ts[0] || l in ts[1..];
      if ts[0] == [] then rest else [ts[0]] + rest
  }

  /** Dropping empty strings keeps order and multiplicity: it distributes over concatenation. */
  lemma {:induction false} NonEmptyAppend(a: seq<string>, b: seq<string>)
    ensures NonEmpty(a + b) == NonEmpty(a) + NonEmpty(b)
  {
    if |a| == 0 {
      assert a + b == b;
    } else {
      assert (a + b)[1..] == a[1..] + b;
      NonEmptyAppend(a[1..], b);
    }
  }

  /** Trimming keeps order: the trimmed pieces of a concatenation are those of its parts. */
  lemma {:induction false} TrimsAppend(a: seq<string>, b: seq<string>)
    ensures Trims(a + b) == Trims(a) + Trims(b)
  {
    if |a| == 0 {
      assert a + b == b;
    } else {
      assert (a + b)[1..] == a[1..] + b;
      TrimsAppend(a[1..], b);
    }
  }

  lemma TrimKeeps(s: string, c: char)
    requires c !in s
    ensures c !in Text.Trim(s)
  {
    var t := Text.TrimStart(s);
    assert c !in t;
  }

  /** The URLs the bulk form accepts, in input order: each valid http(s) line
      that is not listed already and has not been accepted earlier in the same
      input. The selection itself is `Select`. */
  function Accepted(lines: seq<string>, listed: set<string>, parse: string -> ParsedUrl): (r: seq<string>)
    ensures forall i :: 0 <= i < |r| ==> r[i] in lines && IsHttpUrl(parse, r[i]) && r[i] !in listed
    ensures forall i, j :: 0 <= i < j < |r| ==> r[i] != r[j]
    ensures forall l :: l in lines && IsHttpUrl(parse, l) && l !in listed ==> l in r
    ensures |lines| == 1 ==> r == if IsHttpUrl(parse, lines[0]) && lines[0] !in listed then lines else []
  {
    assert |lines| == 1 ==> lines == [lines[0]] && lines[1..] == []
                             && Select(lines[1..], listed + {lines[0]}, parse) == [] && Select(lines[1..], listed, parse) == [];
    SelectValid(lines, listed, parse);
    SelectDistinct(lines, listed, parse);
    SelectCovers(lines, listed, parse);
    Select(lines, listed, parse)
  }

  /** One pass over the lines, adding every accepted URL to the set it checks against. */
  function Select(lines: seq<string>, listed: set<string>, parse: string -> ParsedUrl): seq<string> {
    if |lines| == 0 then []
    else if IsHttpUrl(parse, lines[0]) && lines[0] !in listed then [lines[0]] + Select(lines[1..], listed + {lines[0]}, parse)
    else Select(lines[1..], listed, parse)
  }

  /** Every selected URL is a valid, unlisted line of the input. */
  lemma {:induction false} SelectValid(lines: seq<string>, listed: set<string>, parse: string -> ParsedUrl)
    ensures forall i :: 0 <= i < |Select(lines, listed, parse)| ==>
              var m := Select(lines, listed, parse)[i]; m in lines && IsHttpUrl(parse, m) && m !in listed
  {
    if |lines| > 0 {
      var l := lines[0];
      var r := Select(lines, listed, parse);
      var acc := IsHttpUrl(parse, l) && l !in listed;
      var listed' := if acc then listed + {l} else listed;
      SelectValid(lines[1..], listed', parse);
      var rest := Select(lines[1..], listed', parse);
      assert r == if acc then [l] + rest else rest;
      forall i | 0 <= i < |r| ensures r[i] in lines && IsHttpUrl(parse, r[i]) && r[i] !in listed {
        var k := if acc then i - 1 else i;
        if k >= 0 {
          assert r[i] == rest[k] && rest[k] in lines[1..];
        }
      }
    }
  }

  /** No URL is selected twice. */
  lemma {:induction false} SelectDistinct(lines: seq<string>, listed: set<string>, parse: string -> ParsedUrl)
    ensures forall i, j :: 0 <= i < j < |Select(lines, listed, parse)| ==>
              Select(lines, listed, parse)[i] != Select(lines, listed, parse)[j]
  {
    if |lines| > 0 {
      var l := lines[0];
      if IsHttpUrl(parse, l) && l !in listed {
        SelectDistinct(lines[1..], listed + {l}, parse);
        SelectValid(lines[1..], listed + {l}, parse);
        var rest := Select(lines[1..], listed + {l}, parse);
        var r := [l] + rest;
        forall i, j | 0 <= i < j < |r| ensures r[i] != r[j] {
          assert r[j] == rest[j - 1];
          if i > 0 {
            assert r[i] == rest[i - 1];
          }
        }
      } else {
        SelectDistinct(lines[1..], listed, parse);
      }
    }
  }

  /** Every valid, unlisted line is selected. */
  lemma {:induction false} SelectCovers(lines: seq<string>, listed: set<string>, parse: string -> ParsedUrl)
    ensures forall m :: m in lines && IsHttpUrl(parse, m) && m !in listed ==> m in Select(lines, listed, parse)
  {
    if |lines| > 0 {
      var l := lines[0];
      var acc := IsHttpUrl(parse, l) && l !in listed;
      var listed' := if acc then listed + {l} else listed;
      SelectCovers(lines[1..], listed', parse);
      var rest := Select(lines[1..], listed', parse);
      assert Select(lines, listed, parse) == if acc then [l] + rest else rest;
      forall m | m in lines && IsHttpUrl(parse, m) && m !in listed ensures m in Select(lines, listed, parse) {
        if m != l {
          assert m in lines[1..];
        }
      }
    }
  }

  /** The strings of a list, as a set. */
  function Elements(s: seq<string>): set<string> {
    if |s| == 0 then {} else {s[0]} + Elements(s[1..])
  }

  /** The selection runs in input order: the second part of an input is
      selected against the listed URLs and everything the first part accepted. */
  lemma AcceptedAppend(a: seq<string>, b: seq<string>, listed: set<string>, parse: string -> ParsedUrl)
    ensures Accepted(a + b, listed, parse)
         == Accepted(a, listed, parse) + Accepted(b, listed + Elements(Accepted(a, listed, parse)), parse)
  {
    SelectAppend(a, b, listed, parse);
  }

  lemma {:induction false} SelectAppend(a: seq<string>, b: seq<string>, listed: set<string>, parse: string -> ParsedUrl)
    ensures Select(a + b, listed, parse) == Select(a, listed, parse) + Select(b, listed + Elements(Select(a, listed, parse)), parse)
  {
    if |a| == 0 {
      assert a + b == b;
      assert listed + Elements([]) == listed;
    } else {
      var l := a[0];
      assert (a + b)[0] == l && (a + b)[1..] == a[1..] + b;
      if IsHttpUrl(parse, l) && l !in listed {
        SelectAppend(a[1..], b, listed + {l}, parse);
        var rest := Select(a[1..], listed + {l}, parse);
        assert ([l] + rest)[1..] == rest;
        assert listed + Elements([l] + rest) == listed + {l} + Elements(rest);
      } else {
        SelectAppend(a[1..], b, listed, parse);
      }
    }
  }

  /** The same selection as the source writes it: a line is checked only
      against the URLs already listed, not against the lines before it. */
  function AcceptedAsWritten(lines: seq<string>, listed: set<string>, parse: string -> ParsedUrl): (r: seq<string>)
    ensures forall i :: 0 <= i < |r| ==> r[i] in lines && IsHttpUrl(parse, r[i]) && r[i] !in listed
    ensures forall l :: l in lines && IsHttpUrl(parse, l) && l !in listed ==> l in r
    ensures |r| <= |lines|
    ensures |lines| == 1 ==> r == if IsHttpUrl(parse, lines[0]) && lines[0] !in listed then lines else []
  {
    if |lines| == 0 then []
    else
      var l := lines[0];
      assert forall m :: m in lines[1..] ==> m in lines;
      var rest := AcceptedAsWritten(lines[1..], listed, parse);
      if IsHttpUrl(parse, l) && l !in listed then [l] + rest else rest
  }

  /** As written, each line is judged on its own: the selection of a
      concatenation is the selections of its parts, repeats included. */
  lemma {:induction false} AcceptedAsWrittenAppend(a: seq<string>, b: seq<string>, listed: set<string>, parse: string -> ParsedUrl)
    ensures AcceptedAsWritten(a + b, listed, parse) == AcceptedAsWritten(a, listed, parse) + AcceptedAsWritten(b, listed, parse)
  {
    if |a| == 0 {
      assert a + b == b;
    } else {
      assert (a + b)[0] == a[0] && (a + b)[1..] == a[1..] + b;
      AcceptedAsWrittenAppend(a[1..], b, listed, parse);
    }
  }

  /** The lines the form reports as invalid: those that do not parse or are not http(s). */
  function Invalid(lines: seq<string>, parse: string -> ParsedUrl): (r: seq<string>)
    ensures forall l :: l in r <==> l in lines && !IsHttpUrl(parse, l)
  {
    if |lines| == 0 then []
    else
      var rest := Invalid(lines[1..], parse);
      assert forall m :: m in lines <==> m == lines[0] || m in lines[1..];
      if IsHttpUrl(parse, lines[0]) then rest else [lines[0]] + rest
  }

  /** What the error line says after a bulk add that got past the count
      checks: it is cleared when any URL was added, left as it was when there
      is nothing to report, and otherwise shows the first five invalid lines,
      with "..." when there are more. */
  datatype Message = Keep | Clear | Show(lines: seq<string>, more: bool)

  const MaxShownInvalid: nat := 5

  function BulkMessage(invalid: seq<string>, added: nat): (m: Message)
    ensures m.Clear? <==> added > 0
    ensures m.Keep? <==> added == 0 && |invalid| == 0
    ensures m.Show? ==> && |m.lines| == (if |invalid| < MaxShownInvalid then |invalid| else MaxShownInvalid)
                        && m.lines == invalid[..|m.lines|]
                        && (m.more <==> |invalid| > MaxShownInvalid)
  {
    if added > 0 then Clear
    else if |invalid| == 0 then Keep
    else if |invalid| <= MaxShownInvalid then Show(invalid, false)
    else Show(invalid[..MaxShownInvalid], true)
  }

  /** Fresh entries for the accepted URLs; `mkId(k)` is the id of the k-th one. */
  function FreshAll(accepted: seq<string>, mkId: nat -> string, now: int): (r: seq<UrlCheck>)
    ensures |r| == |accepted|
    ensures forall i :: 0 <= i < |r| ==> r[i] == Fresh(mkId(i), accepted[i], now)
  {
    seq(|accepted|, i requires 0 <= i < |accepted| => Fresh(mkId(i), accepted[i], now))
  }

  datatype BulkError = BulkBlank | NoValidUrls | TooManyUrls

  datatype BulkResult =
    | BulkRejected(reason: BulkError)
    | BulkDone(urls: seq<UrlCheck>, added: seq<UrlCheck>, invalid: seq<string>)

  function Listed(urls: seq<UrlCheck>): set<string> {
    set i | 0 <= i < |urls| :: urls[i].url
  }

  /** The bulk form with the within-input duplicate test added. */
  function AddBulkUrls(urls: seq<UrlCheck>, text: string, parse: string -> ParsedUrl, mkId: nat -> string, now: int): (r: BulkResult)
    ensures r.BulkRejected? <==> Text.Trim(text) == [] || |BulkLines(text)| == 0 || |BulkLines(text)| > MaxBulkUrls
    ensures r.BulkRejected? && r.reason == TooManyUrls ==> |BulkLines(text)| > MaxBulkUrls
    ensures r.BulkDone? ==> r.urls == r.added + urls
    ensures r.BulkDone? ==> |r.added| <= |BulkLines(text)| <= MaxBulkUrls
    ensures r.BulkDone? ==> forall i :: 0 <= i < |r.added| ==>
              r.added[i].status == Checking && r.added[i].history == [] && IsHttpUrl(parse, r.added[i].url)
              && r.added[i].url !in UrlsOf(urls)
    ensures r.BulkDone? ==> forall l :: l in BulkLines(text) && IsHttpUrl(parse, l) && l !in UrlsOf(urls) ==>
              l in UrlsOf(r.added)
    ensures r.BulkDone? ==> forall l :: l in r.invalid <==> l in BulkLines(text) && !IsHttpUrl(parse, l)
    ensures r.BulkDone? ==> UrlsOf(r.added) == Accepted(BulkLines(text), Listed(urls), parse)
  {
    var lines := BulkLines(text);
    if Text.Trim(text) == [] then BulkRejected(BulkBlank)
    else if |lines| == 0 then BulkRejected(NoValidUrls)
    else if |lines| > MaxBulkUrls then BulkRejected(TooManyUrls)
    else
      var accepted := Accepted(lines, Listed(urls), parse);
      var added := FreshAll(accepted, mkId, now);
      AcceptedLength(lines, Listed(urls), parse);
      BulkAdded(lines, urls, parse, accepted, mkId, now);
      BulkDone(added + urls, added, Invalid(lines, parse))
  }

  /** The entries a bulk add creates from a selection of its lines (either
      selection): the selected URLs in order, each fresh, valid and not listed
      before, and one for every acceptable line. */
  lemma BulkAdded(lines: seq<string>, urls: seq<UrlCheck>, parse: string -> ParsedUrl, accepted: seq<string>, mkId: nat -> string, now: int)
    requires |accepted| <= |lines|
    requires forall i :: 0 <= i < |accepted| ==>
               accepted[i] in lines && IsHttpUrl(parse, accepted[i]) && accepted[i] !in Listed(urls)
    requires forall l :: l in lines && IsHttpUrl(parse, l) && l !in Listed(urls) ==> l in accepted
    ensures var added := FreshAll(accepted, mkId, now);
            && |added| <= |lines|
            && UrlsOf(added) == accepted
            && (forall i :: 0 <= i < |added| ==>
                  added[i].status == Checking && added[i].history == [] && IsHttpUrl(parse, added[i].url)
                  && added[i].url !in UrlsOf(urls))
            && (forall l :: l in lines && IsHttpUrl(parse, l) && l !in UrlsOf(urls) ==> l in UrlsOf(added))
  {
    ListedIsUrls(urls);
    var added := FreshAll(accepted, mkId, now);
    assert UrlsOf(added) == accepted;
  }

  lemma ListedIsUrls(urls: seq<UrlCheck>)
    ensures forall u :: u in Listed(urls) <==> u in UrlsOf(urls)
  {
    forall u | u in UrlsOf(urls) ensures u in Listed(urls) {
      var k :| 0 <= k < |urls| && UrlsOf(urls)[k] == u;
      assert urls[k].url == u;
    }
  }

  lemma {:induction false} AcceptedLength(lines: seq<string>, listed: set<string>, parse: string -> ParsedUrl)
    ensures |Accepted(lines, listed, parse)| <= |lines|
  {
    if |lines| > 0 {
      AcceptedLength(lines[1..], listed + {lines[0]}, parse);
      AcceptedLength(lines[1..], listed, parse);
    }
  }

  /** The bulk form as the source writes it. */
  function AddBulkUrlsAsWritten(urls: seq<UrlCheck>, text: string, parse: string -> ParsedUrl, mkId: nat -> string, now: int): (r: BulkResult)
    ensures r.BulkRejected? <==> Text.Trim(text) == [] || |BulkLines(text)| == 0 || |BulkLines(text)| > MaxBulkUrls
    ensures r.BulkRejected? && r.reason == TooManyUrls ==> |BulkLines(text)| > MaxBulkUrls
    ensures r.BulkDone? ==> r.urls == r.added + urls
    ensures r.BulkDone? ==> |r.added| <= |BulkLines(text)| <= MaxBulkUrls
    ensures r.BulkDone? ==> forall i :: 0 <= i < |r.added| ==>
              r.added[i].status == Checking && r.added[i].history == [] && IsHttpUrl(parse, r.added[i].url)
              && r.added[i].url !in UrlsOf(urls)
    ensures r.BulkDone? ==> forall l :: l in BulkLines(text) && IsHttpUrl(parse, l) && l !in UrlsOf(urls) ==>
              l in UrlsOf(r.added)
    ensures r.BulkDone? ==> forall l :: l in r.invalid <==> l in BulkLines(text) && !IsHttpUrl(parse, l)
    ensures r.BulkDone? ==> UrlsOf(r.added) == AcceptedAsWritten(BulkLines(text), Listed(urls), parse)
  {
    var lines := BulkLines(text);
    if Text.Trim(text) == [] then BulkRejected(BulkBlank)
    else if |lines| == 0 then BulkRejected(NoValidUrls)
    else if |lines| > MaxBulkUrls then BulkRejected(TooManyUrls)
    else
      var accepted := AcceptedAsWritten(lines, Listed(urls), parse);
      var added := FreshAll(accepted, mkId, now);
      BulkAdded(lines, urls, parse, accepted, mkId, now);
      BulkDone(added + urls, added, Invalid(lines, parse))
  }

  /** Bulk adding never lists a URL string twice. */
  lemma AddBulkUrlsKeepsUrlsUnique(urls: seq<UrlCheck>, text: string, parse: string -> ParsedUrl, mkId: nat -> string, now: int)
    requires UniqueUrls(urls)
    ensures AddBulkUrls(urls, text, parse, mkId, now).BulkDone? ==> UniqueUrls(AddBulkUrls(urls, text, parse, mkId, now).urls)
  {
    var r := AddBulkUrls(urls, text, parse, mkId, now);
    if r.BulkDone? {
      var accepted := Accepted(BulkLines(text), Listed(urls), parse);
      assert r.added == FreshAll(accepted, mkId, now);
      assert UniqueUrls(r.added) by {
        forall i, j | 0 <= i < j < |r.added| ensures r.added[i].url != r.added[j].url {
          assert r.added[i].url == accepted[i] && r.added[j].url == accepted[j];
        }
      }
      ConcatKeepsUrlsUnique(r.added, urls);
    }
  }

  lemma TrimKeepsWord(s: string)
    requires |s| > 0 && !Text.IsSpace(s[0]) && !Text.IsSpace(s[|s| - 1])
    ensures Text.Trim(s) == s
  {
  }

  /** Two equal lines in one input are both listed by the form as written:
      for any http(s) URL `line` (say "https://a.com"), the input
      `line + "\n" + line` on an empty list lists `line` twice. */
  lemma AddBulkUrlsAsWrittenDuplicates(line: string, parse: string -> ParsedUrl, mkId: nat -> string, now: int)
    requires |line| > 0 && '\n' !in line && !Text.IsSpace(line[0]) && !Text.IsSpace(line[|line| - 1])
    requires IsHttpUrl(parse, line)
    ensures var r := AddBulkUrlsAsWritten([], line + ['\n'] + line, parse, mkId, now);
            r.BulkDone? && |r.urls| == 2 && r.urls[0].url == line && r.urls[1].url == line && !UniqueUrls(r.urls)
  {
    var text := line + ['\n'] + line;
    assert BulkLines(text) == [line, line] && Text.Trim(text) != [] by {
      TwoLines(line);
      assert !Text.IsSpace(text[0]);
    }
    TakesBothCopies(line, parse);
    var r := AddBulkUrlsAsWritten([], text, parse, mkId, now);
    assert r.BulkDone?;
    assert r.urls == r.added;
    assert UrlsOf(r.added) == [line, line];
    assert UrlsOf(r.added)[0] == r.urls[0].url && UrlsOf(r.added)[1] == r.urls[1].url;
  }

  /** As written, a valid URL on two lines, with nothing listed, is taken twice. */
  lemma TakesBothCopies(line: string, parse: string -> ParsedUrl)
    requires IsHttpUrl(parse, line)
    ensures AcceptedAsWritten([line, line], Listed([]), parse) == [line, line]
  {
    assert Listed([]) == {};
    AcceptedAsWrittenAppend([line], [line], {}, parse);
    assert [line] + [line] == [line, line];
  }

  /** A word typed twice on two lines gives two bulk lines. */
  lemma TwoLines(line: string)
    requires |line| > 0 && '\n' !in line && !Text.IsSpace(line[0]) && !Text.IsSpace(line[|line| - 1])
    ensures BulkLines(line + ['\n'] + line) == [line, line]
  {
    Text.SplitJoin([line, line], '\n');
    assert Text.Split(line + ['\n'] + line, '\n') == [line, line];
    TrimKeepsWord(line);
    assert Trims([line, line]) == [line, line];
    assert NonEmpty([line, line]) == [line] + NonEmpty([line, line][1..]);
  }

  // ------------------------------------------------------ checking one URL

  /** The list together with the ids whose check is in flight and the "check all" flag. */
  datatype Board = Board(urls: seq<UrlCheck>, inFlight: set<string>, isChecking: bool)

  function MarkChecking(urls: seq<UrlCheck>, id: string): (r: seq<UrlCheck>)
    ensures |r| == |urls| && IdsOf(r) == IdsOf(urls)
    ensures forall i :: 0 <= i < |urls| ==> r[i] == if urls[i].id == id then urls[i].(status := Checking) else urls[i]
  {
    seq(|urls|, i requires 0 <= i < |urls| => if urls[i].id == id then urls[i].(status := Checking) else urls[i])
  }

  /** The start of a single check: refused when the id is already in flight,
      otherwise the id is marked in flight and its URL shows CHECKING. */
  function StartCheck(b: Board, id: string): (r: Option<Board>)
    ensures r.None? <==> id in b.inFlight
    ensures r.Some? ==> r.value.inFlight == b.inFlight + {id} && r.value.isChecking == b.isChecking
    ensures r.Some? ==> r.value.urls == MarkChecking(b.urls, id)
  {
    if id in b.inFlight then None
    else Some(b.(urls := MarkChecking(b.urls, id), inFlight := b.inFlight + {id}))
  }

  /** The end of a single check, in both the answered and the failed case: the
      result is recorded and the in-flight mark released. */
  function FinishCheck(b: Board, id: string, outcome: CheckOutcome, now: int): (r: Board)
    ensures r.inFlight == b.inFlight - {id} && r.isChecking == b.isChecking
    ensures r.urls == RecordResult(b.urls, id, outcome, now)
  {
    b.(urls := RecordResult(b.urls, id, outcome, now), inFlight := b.inFlight - {id})
  }

  /** One whole check of one id, as seen once it has completed. */
  function CheckSingleUrl(b: Board, id: string, outcome: CheckOutcome, now: int): (r: Board)
    ensures id in b.inFlight ==> r == b
    ensures id !in b.inFlight ==> r.inFlight == b.inFlight && r.urls == RecordResult(b.urls, id, outcome, now)
    ensures r.isChecking == b.isChecking
  {
    match StartCheck(b, id)
    case None => b
    case Some(started) =>
      assert RecordResult(started.urls, id, outcome, now) == RecordResult(b.urls, id, outcome, now);
      FinishCheck(started, id, outcome, now)
  }

  /** The uptime of a one-entry history is 100 when that entry is UP and 0 otherwise. */
  lemma UptimeOfOne(e: HistoryEntry)
    ensures Uptime([e]) == if e.verdict == Up then 100.0 else 0.0
  {
    if e.verdict == Up {
      assert CountVerdict([e], Up) == 1;
    } else {
      assert CountVerdict([e], Up) == 0;
    }
  }

  /** The first check of a URL with no history yet leaves it with a one-entry
      history, the check's status and latency, and an uptime of 100 or 0. */
  lemma FirstRecord(u: UrlCheck, outcome: CheckOutcome, now: int)
    requires u.history == []
    ensures Record(u, outcome, now).history == [EntryOf(outcome, now)]
    ensures Record(u, outcome, now).uptime == if EntryOf(outcome, now).verdict == Up then 100.0 else 0.0
  {
    var e := EntryOf(outcome, now);
    var r := Record(u, outcome, now);
    assert |r.history| == 1;
    assert u.history + [e] == [e];
    assert r.history == [e][0..];
    UptimeOfOne(e);
  }

  /** On the board: the first check of an id whose entry has no history yet. */
  lemma FirstCheck(b: Board, id: string, outcome: CheckOutcome, now: int, k: nat)
    requires k < |b.urls| && b.urls[k].id == id && b.urls[k].history == [] && id !in b.inFlight
    ensures CheckSingleUrl(b, id, outcome, now).urls[k] == Record(b.urls[k], outcome, now)
    ensures CheckSingleUrl(b, id, outcome, now).urls[k].history == [EntryOf(outcome, now)]
    ensures CheckSingleUrl(b, id, outcome, now).urls[k].status == Settled(EntryOf(outcome, now).verdict)
  {
    FirstRecord(b.urls[k], outcome, now);
  }

  /** Recording a result for the entry just put at the head of the list: it
      alone takes the result, and the entries behind it are untouched. */
  lemma RecordNewHead(urls: seq<UrlCheck>, u: UrlCheck, outcome: CheckOutcome, now: int)
    requires u.id !in IdsOf(urls)
    ensures RecordResult([u] + urls, u.id, outcome, now) == [Record(u, outcome, now)] + urls
  {
    RecordResultAppend([u], urls, u.id, outcome, now);
    LateResultChangesNothing(urls, u.id, outcome, now);
    RecordResultOne(u, outcome, now);
  }

  /** Recording into a one-entry list with that entry's id records into the entry. */
  lemma RecordResultOne(u: UrlCheck, outcome: CheckOutcome, now: int)
    ensures RecordResult([u], u.id, outcome, now) == [Record(u, outcome, now)]
  {
    var r := RecordResult([u], u.id, outcome, now);
    assert [u][0] == u;
    assert r[0] == Record(u, outcome, now);
  }

  /** Recording distributes over concatenation. */
  lemma RecordResultAppend(a: seq<UrlCheck>, b: seq<UrlCheck>, id: string, outcome: CheckOutcome, now: int)
    ensures RecordResult(a + b, id, outcome, now) == RecordResult(a, id, outcome, now) + RecordResult(b, id, outcome, now)
  {
    var ab := a + b;
    var l := RecordResult(ab, id, outcome, now);
    var ra, rb := RecordResult(a, id, outcome, now), RecordResult(b, id, outcome, now);
    var r := ra + rb;
    assert |l| == |r|;
    assert forall i :: 0 <= i < |l| ==> l[i] == r[i] by {
      forall i | 0 <= i < |l|
        ensures l[i] == r[i]
      {
        var x := if i < |a| then a[i] else b[i - |a|];
        var y := if i < |a| then ra[i] else rb[i - |a|];
        assert ab[i] == x && r[i] == y;
        assert y == if x.id == id then Record(x, outcome, now) else x;
      }
    }
  }

  /** A URL added through the single-URL form is checked right away: the new
      entry, at the head of the list, then holds exactly that first check, and
      the URLs already listed are untouched. */
  lemma AddThenCheck(b: Board, input: string, parse: string -> ParsedUrl, id: string, now: int,
                     outcome: CheckOutcome, now': int)
    requires id !in IdsOf(b.urls) && id !in b.inFlight
    ensures var added := AddUrl(b.urls, input, parse, id, now);
            added.Added? ==>
              var r := CheckSingleUrl(b.(urls := added.urls), id, outcome, now');
              && |r.urls| == |b.urls| + 1 && r.inFlight == b.inFlight
              && r.urls[0].id == id && r.urls[0].url == input
              && r.urls[0].history == [EntryOf(outcome, now')]
              && r.urls[0].status == Settled(EntryOf(outcome, now').verdict)
              && r.urls[1..] == b.urls
  {
    var added := AddUrl(b.urls, input, parse, id, now);
    if added.Added? {
      var u := Fresh(id, input, now);
      assert added.urls == [u] + b.urls;
      RecordNewHead(b.urls, u, outcome, now');
      FirstRecord(u, outcome, now');
    }
  }

  /** While a check of an id is in flight, a second one for that id does not start. */
  lemma NoDuplicateConcurrentChecks(b: Board, id: string)
    requires StartCheck(b, id).Some?
    ensures StartCheck(StartCheck(b, id).value, id).None?
  {
  }

  /** A check whose URL is removed while it is in flight changes nothing when its result arrives. */
  lemma RemovedWhileInFlight(b: Board, id: string, outcome: CheckOutcome, now: int)
    requires StartCheck(b, id).Some?
    ensures var gone := RemoveUrl(StartCheck(b, id).value, id);
            FinishCheck(gone, id, outcome, now).urls == gone.urls
  {
    var gone := RemoveUrl(StartCheck(b, id).value, id);
    assert id !in IdsOf(gone.urls) by {
      forall i | 0 <= i < |gone.urls| ensures IdsOf(gone.urls)[i] != id { }
    }
    LateResultChangesNothing(gone.urls, id, outcome, now);
  }

  /** Removal: every entry with the id goes, the rest keep their order, and the in-flight mark is cleared. */
  function RemoveUrl(b: Board, id: string): (r: Board)
    ensures r.urls == WithoutId(b.urls, id) && r.inFlight == b.inFlight - {id}
    ensures id !in IdsOf(r.urls)
    ensures r.isChecking == b.isChecking
  {
    var urls := WithoutId(b.urls, id);
    assert id !in IdsOf(urls) by {
      forall i | 0 <= i < |urls| ensures IdsOf(urls)[i] != id { }
    }
    b.(urls := urls, inFlight := b.inFlight - {id})
  }

  // ------------------------------------------------------------- check all

  /** One step of "check all": a window of URLs probed together, or the pause between windows. */
  datatype Step<T> = Probe(window: seq<T>) | Pause

  /** The reference schedule: windows of five in input order, a pause between consecutive windows only. */
  function Schedule<T>(items: seq<T>): seq<Step<T>>
    decreases |items|
  {
    if |items| == 0 then []
    else if |items| <= WindowWidth then [Probe(items)]
    else [Probe(items[..WindowWidth]), Pause] + Schedule(items[WindowWidth..])
  }

  /** The loop of `checkAllUrls`: advance by five, probe the slice, pause only if more URLs follow. */
  method PlanCheckAll<T>(items: seq<T>) returns (steps: seq<Step<T>>)
    ensures steps == Schedule(items)
  {
    steps := [];
    var i := 0;
    while i < |items|
      invariant steps + Schedule(Remaining(items, i)) == Schedule(items)
      decreases |items| - i
    {
      ScheduleFrom(items, i);
      if i + WindowWidth < |items| {
        assert Remaining(items, i + WindowWidth) == items[i + WindowWidth..];
        assert steps + [Probe(items[i..i + WindowWidth]), Pause] + Schedule(items[i + WindowWidth..]) ==
               steps + Schedule(items[i..]);
        steps := steps + [Probe(items[i..i + WindowWidth]), Pause];
      } else {
        assert Remaining(items, i + WindowWidth) == [];
        steps := steps + [Probe(items[i..])];
      }
      i := i + WindowWidth;
    }
  }

  /** The URLs from position `i` on; none once `i` has passed the end. */
  function Remaining<T>(items: seq<T>, i: nat): seq<T> {
    if i <= |items| then items[i..] else []
  }

  /** One turn of the loop: the schedule from position `i` starts with the slice
      `items[i..i+5]` (clamped), followed by a pause and the rest only when more URLs follow. */
  lemma ScheduleFrom<T>(items: seq<T>, i: nat)
    requires i < |items|
    ensures var end := if i + WindowWidth <= |items| then i + WindowWidth else |items|;
            Schedule(items[i..]) == [Probe(items[i..end])] +
              (if i + WindowWidth < |items| then [Pause] + Schedule(items[i + WindowWidth..]) else [])
  {
    var rest := items[i..];
    if i + WindowWidth < |items| {
      assert rest[..WindowWidth] == items[i..i + WindowWidth];
      assert rest[WindowWidth..] == items[i + WindowWidth..];
    } else {
      assert rest == items[i..|items|];
    }
  }

  /** The URLs probed by a schedule, in order. */
  function Probed<T>(steps: seq<Step<T>>): seq<T> {
    if |steps| == 0 then []
    else (if steps[0].Probe? then steps[0].window else []) + Probed(steps[1..])
  }

  /** Every URL is probed exactly once, in input order. */
  lemma {:induction false} ScheduleCoversInOrder<T>(items: seq<T>)
    ensures Probed(Schedule(items)) == items
    decreases |items|
  {
    if |items| > WindowWidth {
      var s := Schedule(items);
      ScheduleCoversInOrder(items[WindowWidth..]);
      assert s[2..] == Schedule(items[WindowWidth..]);
      assert Probed(s) == items[..WindowWidth] + Probed(s[1..]);
      assert Probed(s[1..]) == Probed(s[2..]);
      assert items == items[..WindowWidth] + items[WindowWidth..];
    } else if |items| > 0 {
      var s := Schedule(items);
      assert Probed(s) == items + Probed(s[1..]);
    }
  }

  /** Windows and pauses alternate, starting and ending with a window; every
      window but the last holds five URLs and the last holds one to five. */
  lemma {:induction false} ScheduleShape<T>(items: seq<T>)
    ensures var s := Schedule(items);
            && (|items| == 0 <==> |s| == 0)
            && (|s| == 0 || |s| % 2 == 1)
            && (forall k :: 0 <= k < |s| ==> (s[k].Pause? <==> k % 2 == 1))
            && (forall k :: 0 <= k < |s| - 1 && k % 2 == 0 ==> |s[k].window| == WindowWidth)
            && (|s| > 0 ==> 1 <= |s[|s| - 1].window| <= WindowWidth)
    decreases |items|
  {
    if |items| > WindowWidth {
      var s := Schedule(items);
      var t := Schedule(items[WindowWidth..]);
      ScheduleShape(items[WindowWidth..]);
      assert s == [Probe(items[..WindowWidth]), Pause] + t;
      assert forall k :: 2 <= k < |s| ==> s[k] == t[k - 2];
    }
  }

  /** Twelve URLs give windows of 5, 5 and 2 with two pauses. */
  lemma TwelveUrlsMakeThreeWindows(items: seq<int>)
    requires |items| == 12
    ensures Schedule(items) == [Probe(items[..5]), Pause, Probe(items[5..10]), Pause, Probe(items[10..])]
  {
    assert Schedule(items) == [Probe(items[..5]), Pause] + Schedule(items[5..]);
    assert items[5..][..5] == items[5..10];
    assert items[5..][5..] == items[10..];
    assert Schedule(items[5..]) == [Probe(items[5..10]), Pause] + Schedule(items[10..]);
    assert Schedule(items[10..]) == [Probe(items[10..])];
  }

  /** "Check all": refused while a run is going or with no URLs; otherwise every
      URL shows CHECKING, the URLs are checked window by window along the
      schedule, and the flag clears. With distinct ids, every URL ends up with
      its check recorded, except one whose single check was already in flight:
      that one is skipped and still shows CHECKING. */
  function CheckAllUrls(b: Board, outcome: string -> CheckOutcome, now: int): (r: Board)
    ensures b.isChecking || |b.urls| == 0 ==> r == b
    ensures !r.isChecking || r == b
    ensures r.inFlight == b.inFlight
    ensures IdsOf(r.urls) == IdsOf(b.urls) && UrlsOf(r.urls) == UrlsOf(b.urls)
    ensures !b.isChecking && Distinct(IdsOf(b.urls)) ==>
              forall i :: 0 <= i < |b.urls| ==>
                r.urls[i] == if b.urls[i].id in b.inFlight then b.urls[i].(status := Checking)
                             else Record(b.urls[i], outcome(b.urls[i].id), now)
  {
    if b.isChecking || |b.urls| == 0 then b
    else
      var ids := IdsOf(b.urls);
      var marked := b.(urls := MarkAll(b.urls), isChecking := true);
      var done := CheckSteps(marked, Schedule(ids), outcome, now);
      ScheduledChecksVisitEachId(marked, ids, outcome, now);
      CheckAllRecords(b, marked, outcome, now);
      done.(isChecking := false)
  }

  /** Running the windows of the schedule checks every id once, in list order. */
  lemma ScheduledChecksVisitEachId(b: Board, ids: seq<string>, outcome: string -> CheckOutcome, now: int)
    ensures CheckSteps(b, Schedule(ids), outcome, now) == CheckEach(b, ids, outcome, now)
  {
    ScheduleCoversInOrder(ids);
  }

  /** After every URL is marked CHECKING, checking each id once leaves each
      URL with its result, or still CHECKING when a check of it was in flight. */
  lemma CheckAllRecords(b: Board, marked: Board, outcome: string -> CheckOutcome, now: int)
    requires marked == b.(urls := MarkAll(b.urls), isChecking := true)
    ensures Distinct(IdsOf(b.urls)) ==>
              forall i :: 0 <= i < |b.urls| ==>
                CheckEach(marked, IdsOf(b.urls), outcome, now).urls[i] ==
                  if b.urls[i].id in b.inFlight then b.urls[i].(status := Checking)
                  else Record(b.urls[i], outcome(b.urls[i].id), now)
  {
    var ids := IdsOf(b.urls);
    if Distinct(ids) {
      CheckEachRecords(marked, ids, outcome, now);
      forall i | 0 <= i < |b.urls|
        ensures AfterRun(marked.urls[i], ids, b.inFlight, outcome, now) ==
                  if b.urls[i].id in b.inFlight then b.urls[i].(status := Checking)
                  else Record(b.urls[i], outcome(b.urls[i].id), now)
      {
        assert ids[i] == b.urls[i].id;
        RecordIgnoresStatus(b.urls[i], Checking, outcome(b.urls[i].id), now);
      }
    }
  }

  /** Pairwise different elements. */
  predicate Distinct<T(==)>(s: seq<T>) {
    forall i, j :: 0 <= i < j < |s| ==> s[i] != s[j]
  }

  function MarkAll(urls: seq<UrlCheck>): (r: seq<UrlCheck>)
    ensures IdsOf(r) == IdsOf(urls) && UrlsOf(r) == UrlsOf(urls)
    ensures |r| == |urls| && forall i :: 0 <= i < |r| ==> r[i].status == Checking
    ensures forall i :: 0 <= i < |r| ==> r[i] == urls[i].(status := Checking)
  {
    seq(|urls|, i requires 0 <= i < |urls| => urls[i].(status := Checking))
  }

  /** Recording a check replaces every field but the id and the URL, so the status shown before does not matter. */
  lemma RecordIgnoresStatus(u: UrlCheck, s: Status, outcome: CheckOutcome, now: int)
    ensures Record(u.(status := s), outcome, now) == Record(u, outcome, now)
  {
  }

  /** A run along a schedule: the checks of each window in order, nothing at a
      pause. It is the run over the probed ids, in their order. */
  function CheckSteps(b: Board, steps: seq<Step<string>>, outcome: string -> CheckOutcome, now: int): (r: Board)
    ensures r == CheckEach(b, Probed(steps), outcome, now)
    decreases |steps|
  {
    if |steps| == 0 then b
    else
      var window := if steps[0].Probe? then steps[0].window else [];
      CheckEachAppend(b, window, Probed(steps[1..]), outcome, now);
      CheckSteps(CheckEach(b, window, outcome, now), steps[1..], outcome, now)
  }

  /** The checks of a run, applied one after the other in list order. */
  function CheckEach(b: Board, ids: seq<string>, outcome: string -> CheckOutcome, now: int): (r: Board)
    ensures r.inFlight == b.inFlight && r.isChecking == b.isChecking
    ensures IdsOf(r.urls) == IdsOf(b.urls) && UrlsOf(r.urls) == UrlsOf(b.urls)
    decreases |ids|
  {
    if |ids| == 0 then b
    else CheckEach(CheckSingleUrl(b, ids[0], outcome(ids[0]), now), ids[1..], outcome, now)
  }

  /** One URL after a run over `ids`: its check recorded when its id is run
      and was not already in flight, otherwise as it was. */
  function AfterRun(u: UrlCheck, ids: seq<string>, inFlight: set<string>, outcome: string -> CheckOutcome, now: int): UrlCheck {
    if u.id in ids && u.id !in inFlight then Record(u, outcome(u.id), now) else u
  }

  /** With distinct ids, a run changes each URL exactly as its own check does,
      and leaves the URLs it does not run alone. */
  lemma {:induction false} CheckEachRecords(b: Board, ids: seq<string>, outcome: string -> CheckOutcome, now: int)
    requires Distinct(ids)
    ensures forall i :: 0 <= i < |b.urls| ==>
              CheckEach(b, ids, outcome, now).urls[i] == AfterRun(b.urls[i], ids, b.inFlight, outcome, now)
    decreases |ids|
  {
    if |ids| > 0 {
      var next := CheckSingleUrl(b, ids[0], outcome(ids[0]), now);
      var rest := ids[1..];
      assert Distinct(rest) by {
        forall i, j | 0 <= i < j < |rest| ensures rest[i] != rest[j] {
          assert rest[i] == ids[i + 1] && rest[j] == ids[j + 1];
        }
      }
      CheckEachRecords(next, rest, outcome, now);
      var r := CheckEach(b, ids, outcome, now);
      assert r == CheckEach(next, rest, outcome, now);
      forall i | 0 <= i < |b.urls| ensures r.urls[i] == AfterRun(b.urls[i], ids, b.inFlight, outcome, now) {
        var u := b.urls[i];
        assert IdsOf(next.urls)[i] == IdsOf(b.urls)[i];
        assert u.id in ids <==> u.id == ids[0] || u.id in rest;
      }
    }
  }

  /** Running two lists of checks one after the other is running their concatenation. */
  lemma {:induction false} CheckEachAppend(b: Board, xs: seq<string>, ys: seq<string>, outcome: string -> CheckOutcome, now: int)
    ensures CheckEach(b, xs + ys, outcome, now) == CheckEach(CheckEach(b, xs, outcome, now), ys, outcome, now)
    decreases |xs|
  {
    if |xs| == 0 {
      assert xs + ys == ys;
    } else {
      assert (xs + ys)[0] == xs[0] && (xs + ys)[1..] == xs[1..] + ys;
      CheckEachAppend(CheckSingleUrl(b, xs[0], outcome(xs[0]), now), xs[1..], ys, outcome, now);
    }
  }

  // ------------------------------------------------------------ summary

  datatype Summary = Summary(total: nat, up: nat, down: nat, avgResponseTime: int)

  /** Number of URLs showing status `s`. */
  function CountStatus(urls: seq<UrlCheck>, s: Status): (c: nat)
    ensures c <= |urls|
    ensures c == 0 <==> forall i :: 0 <= i < |urls| ==> urls[i].status != s
    ensures c == |urls| <==> forall i :: 0 <= i < |urls| ==> urls[i].status == s
    ensures |urls| == 1 ==> c == if urls[0].status == s then 1 else 0
  {
    if |urls| == 0 then 0 else (if urls[0].status == s then 1 else 0) + CountStatus(urls[1..], s)
  }

  lemma {:induction false} CountStatusAppend(a: seq<UrlCheck>, b: seq<UrlCheck>, s: Status)
    ensures CountStatus(a + b, s) == CountStatus(a, s) + CountStatus(b, s)
  {
    if |a| == 0 {
      assert a + b == b;
    } else {
      assert (a + b)[1..] == a[1..] + b;
      CountStatusAppend(a[1..], b, s);
    }
  }

  lemma {:induction false} CountStatusesBound(urls: seq<UrlCheck>)
    ensures CountStatus(urls, Settled(Up)) + CountStatus(urls, Settled(Down)) <= |urls|
  {
    if |urls| > 0 {
      CountStatusesBound(urls[1..]);
    }
  }

  /** The latencies the summary averages: present and non-zero (JavaScript truthiness). */
  function TruthyTimes(urls: seq<UrlCheck>): (ts: seq<nat>)
    ensures forall i :: 0 <= i < |ts| ==> ts[i] > 0
    ensures |ts| <= |urls|
    ensures |urls| == 1 ==>
              ts == if urls[0].responseTime.Some? && urls[0].responseTime.value != 0 then [urls[0].responseTime.value] else []
  {
    if |urls| == 0 then []
    else
      var rest := TruthyTimes(urls[1..]);
      match urls[0].responseTime
      case Some(t) => if t != 0 then [t] + rest else rest
      case None => rest
  }

  /** The averaged latencies keep the list's order and multiplicity. */
  lemma {:induction false} TruthyTimesAppend(a: seq<UrlCheck>, b: seq<UrlCheck>)
    ensures TruthyTimes(a + b) == TruthyTimes(a) + TruthyTimes(b)
  {
    if |a| == 0 {
      assert a + b == b;
    } else {
      assert (a + b)[1..] == a[1..] + b;
      TruthyTimesAppend(a[1..], b);
    }
  }

  /** A latency is averaged exactly when it is non-zero and some URL shows it. */
  lemma {:induction false} TruthyTimesMembers(urls: seq<UrlCheck>)
    ensures forall t :: t in TruthyTimes(urls) <==> t != 0 && exists i :: 0 <= i < |urls| && urls[i].responseTime == Some(t)
  {
    if |urls| > 0 {
      TruthyTimesMembers(urls[1..]);
      assert forall i :: 1 <= i < |urls| ==> urls[i] == urls[1..][i - 1];
      assert forall t :: (exists i :: 0 <= i < |urls| && urls[i].responseTime == Some(t)) <==>
                         urls[0].responseTime == Some(t) ||
                         exists i :: 0 <= i < |urls[1..]| && urls[1..][i].responseTime == Some(t);
    }
  }

  /** The figures above the list: URL count, UP and DOWN counts, and the
      rounded mean of the truthy latencies (0 when there are none). */
  function SummaryOf(urls: seq<UrlCheck>): (s: Summary)
    ensures s.total == |urls| && s.up + s.down <= s.total
    ensures s.up == CountStatus(urls, Settled(Up)) && s.down == CountStatus(urls, Settled(Down))
    ensures |TruthyTimes(urls)| == 0 ==> s.avgResponseTime == 0
    ensures |TruthyTimes(urls)| > 0 ==> MinOf(TruthyTimes(urls)) <= s.avgResponseTime <= MaxOf(TruthyTimes(urls))
    ensures var ts := TruthyTimes(urls);
            |ts| > 0 ==> (s.avgResponseTime as real) - 0.5 <= (Sum(ts) as real) / (|ts| as real) < (s.avgResponseTime as real) + 0.5
  {
    CountStatusesBound(urls);
    var ts := TruthyTimes(urls);
    if |ts| > 0 then
      MeanBetweenMinMax(ts);
      var mean := (Sum(ts) as real) / (|ts| as real);
      RoundBetween(mean, MinOf(ts), MaxOf(ts));
      Summary(|urls|, CountStatus(urls, Settled(Up)), CountStatus(urls, Settled(Down)), Round(mean))
    else
      Summary(|urls|, CountStatus(urls, Settled(Up)), CountStatus(urls, Settled(Down)), 0)
  }
}

=== FILE: notifications.dfy ===
/** The notification centre (components/notification-center.tsx): a list of
    notifications with a read flag, the unread count shown on the bell, and
    the list operations of the panel. */
module Notifications {
  import opened Common

  datatype Kind = Success | Error | Warning | Info

  datatype Notification = Notification(id: string, kind: Kind, title: string, message: string,
                                        timestamp: int, read: bool, url: Option<string>)

  /** The number of unread notifications. */
  function UnreadCount(ns: seq<Notification>): (c: nat)
    ensures c <= |ns|
    ensures c == 0 <==> forall i :: 0 <= i < |ns| ==> ns[i].read
    ensures c == |ns| <==> forall i :: 0 <= i < |ns| ==> !ns[i].read
    ensures |ns| == 1 ==> c == if ns[0].read then 0 else 1
  {
    if |ns| == 0 then 0
    else
      assert forall i :: 1 <= i < |ns| ==> ns[i] == ns[1..][i - 1];
      (if ns[0].read then 0 else 1) + UnreadCount(ns[1..])
  }

  /** The count is additive: a list's unread notifications are those of its parts. */
  lemma {:induction false} UnreadCountAppend(a: seq<Notification>, b: seq<Notification>)
    ensures UnreadCount(a + b) == UnreadCount(a) + UnreadCount(b)
  {
    if |a| == 0 {
      assert a + b == b;
    } else {
      assert (a + b)[1..] == a[1..] + b;
      UnreadCountAppend(a[1..], b);
    }
  }

  /** The unread notifications carrying this id. */
  function UnreadWithId(ns: seq<Notification>, id: string): (c: nat)
    ensures c <= UnreadCount(ns)
  {
    if |ns| == 0 then 0
    else (if !ns[0].read && ns[0].id == id then 1 else 0) + UnreadWithId(ns[1..], id)
  }

  /** `markAsRead(id)`: the notifications with that id become read; every other
      notification, and every other field, is left as it was. */
  function MarkAsRead(ns: seq<Notification>, id: string): (r: seq<Notification>)
    ensures |r| == |ns|
    ensures forall i :: 0 <= i < |ns| && ns[i].id != id ==> r[i] == ns[i]
    ensures forall i :: 0 <= i < |ns| && ns[i].id == id ==> r[i] == ns[i].(read := true)
  {
    if |ns| == 0 then []
    else
      var head := if ns[0].id == id then ns[0].(read := true) else ns[0];
      [head] + MarkAsRead(ns[1..], id)
  }

  /** Marking read lowers the unread count by the unread notifications with that id. */
  lemma {:induction false} MarkAsReadCount(ns: seq<Notification>, id: string)
    ensures UnreadCount(MarkAsRead(ns, id)) == UnreadCount(ns) - UnreadWithId(ns, id)
  {
    if |ns| > 0 {
      var r := MarkAsRead(ns, id);
      MarkAsReadCount(ns[1..], id);
      assert r[1..] == MarkAsRead(ns[1..], id);
    }
  }

  /** Marking read twice is marking read once. */
  lemma MarkAsReadIdempotent(ns: seq<Notification>, id: string)
    ensures MarkAsRead(MarkAsRead(ns, id), id) == MarkAsRead(ns, id)
  {
  }

  /** `markAllAsRead`: the same notifications in the same order, all read. */
  function MarkAllAsRead(ns: seq<Notification>): (r: seq<Notification>)
    ensures |r| == |ns|
    ensures forall i :: 0 <= i < |ns| ==> r[i] == ns[i].(read := true)
    ensures UnreadCount(r) == 0
  {
    seq(|ns|, i requires 0 <= i < |ns| => ns[i].(read := true))
  }

  /** After marking everything read, marking one id read changes nothing. */
  lemma MarkAsReadAfterMarkAll(ns: seq<Notification>, id: string)
    ensures MarkAsRead(MarkAllAsRead(ns), id) == MarkAllAsRead(ns)
  {
  }

  /** `removeNotification(id)`: the notifications with that id go, the rest keep their order. */
  function RemoveNotification(ns: seq<Notification>, id: string): (r: seq<Notification>)
    ensures |r| <= |ns|
    ensures forall n :: n in r <==> n in ns && n.id != id
    ensures UnreadCount(r) == UnreadCount(ns) - UnreadWithId(ns, id)
  {
    if |ns| == 0 then []
    else
      var rest := RemoveNotification(ns[1..], id);
      assert forall n :: n in ns <==> n == ns[0] || n in ns[1..];
      if ns[0].id == id then rest
      else
        assert ([ns[0]] + rest)[1..] == rest;
        [ns[0]] + rest
  }

  /** Removal keeps order: removing from a concatenation removes from each part. */
  lemma {:induction false} RemoveNotificationAppend(a: seq<Notification>, b: seq<Notification>, id: string)
    ensures RemoveNotification(a + b, id) == RemoveNotification(a, id) + RemoveNotification(b, id)
  {
    if |a| == 0 {
      assert a + b == b;
    } else {
      assert (a + b)[1..] == a[1..] + b;
      RemoveNotificationAppend(a[1..], b, id);
    }
  }

  /** `clearAll`: nothing is left, so nothing is unread. */
  function ClearAll(ns: seq<Notification>): (r: seq<Notification>)
    ensures |r| == 0 && UnreadCount(r) == 0
  {
    []
  }

  /** The bell's badge: hidden with nothing unread, the count up to 99, and "99+" above. */
  datatype Badge = Hidden | Count(n: nat) | Overflow

  function BadgeOf(ns: seq<Notification>): (b: Badge)
    ensures b == Hidden <==> forall i :: 0 <= i < |ns| ==> ns[i].read
    ensures b == Overflow <==> UnreadCount(ns) > 99
    ensures b.Count? ==> b.n == UnreadCount(ns) && 1 <= b.n <= 99
  {
    var c := UnreadCount(ns);
    if c == 0 then Hidden else if c > 99 then Overflow else Count(c)
  }

  /** The text of a badge that is shown. */
  function BadgeLabel(b: Badge): (s: string)
    requires b != Hidden
    ensures b == Overflow ==> s == "99+"
    ensures b.Count? ==> s == DecimalString(b.n)
  {
    if b == Overflow then "99+" else DecimalString(b.n)
  }

  /** A natural number written in decimal, as JavaScript renders it. */
  function DecimalString(n: nat): (s: string)
    ensures |s| > 0 && forall i :: 0 <= i < |s| ==> '0' <= s[i] <= '9'
    ensures |s| > 1 ==> s[0] != '0'
  {
    if n < 10 then [Digit(n)] else DecimalString(n / 10) + [Digit(n % 10)]
  }

  function Digit(d: nat): (c: char)
    requires d < 10
    ensures '0' <= c <= '9'
  {
    ['0', '1', '2', '3', '4', '5', '6', '7', '8', '9'][d]
  }

  function DigitValue(c: char): (d: nat)
    requires '0' <= c <= '9'
  {
    (c as int) - ('0' as int)
  }

  function DecimalValue(s: string): nat
    requires forall i :: 0 <= i < |s| ==> '0' <= s[i] <= '9'
  {
    if |s| == 0 then 0 else 10 * DecimalValue(s[..|s| - 1]) + DigitValue(s[|s| - 1])
  }

  /** Reading a rendered count back gives the count. */
  lemma {:induction false} DecimalRoundTrip(n: nat)
    ensures DecimalValue(DecimalString(n)) == n
  {
    var s := DecimalString(n);
    if n >= 10 {
      DecimalRoundTrip(n / 10);
      assert s[..|s| - 1] == DecimalString(n / 10);
    }
  }

  /** A badge's label never shows more than three characters. */
  lemma BadgeLabelFits(ns: seq<Notification>)
    requires BadgeOf(ns) != Hidden
    ensures |BadgeLabel(BadgeOf(ns))| <= 3
  {
    var b := BadgeOf(ns);
    if b.Count? && b.n >= 10 {
      assert b.n / 10 < 10;
      assert |DecimalString(b.n / 10)| == 1;
    }
  }
}

=== FILE: probe_cache.dfy ===
/** The probe endpoint of the monitor (`POST /api/check-url`): a per-URL verdict
    cache with a five-minute time-to-live in front of a HEAD probe. A live
    cache entry is replayed with jittered latency and a rare status flip; a miss
    runs the probe, whose HTTP outcome becomes the verdict; a probe that cannot
    complete is replaced by a synthetic verdict. Every answer is written back
    to the cache.

    Randomness is the `Draws` record (each draw in [0, 1)), the clock is `now`
    in milliseconds, the probe's outcome is an input, and `new URL(...)` is the
    `parse` parameter. */
module ProbeCache {
  import opened Common

  /** Five minutes, in milliseconds. */
  const CacheTtl: int := 5 * 60 * 1000

  /** A request sweeps the cache when its draw falls below this (one request in ten). */
  const SweepChance: real := 0.1

  datatype CacheEntry = CacheEntry(verdict: Verdict, responseTime: nat, lastUpdated: int)

  /** Keyed by the raw URL string the client sent. */
  type Cache = map<string, CacheEntry>

  /** The read test: an entry may be replayed while it is strictly younger than the TTL. */
  predicate IsLive(e: CacheEntry, now: int) {
    now - e.lastUpdated < CacheTtl
  }

  /** The sweep test: an entry is evicted only once it is strictly older than the TTL. */
  predicate IsExpired(e: CacheEntry, now: int) {
    now - e.lastUpdated > CacheTtl
  }

  /** The cache read of the request handler: the stored entry when it is live. */
  function Lookup(cache: Cache, url: string, now: int): (r: Option<CacheEntry>)
    ensures r.Some? <==> url in cache && now - cache[url].lastUpdated < CacheTtl
    ensures r.Some? ==> r.value == cache[url]
  {
    if url in cache && IsLive(cache[url], now) then Some(cache[url]) else None
  }

  /** The sweep: drops exactly the entries older than the TTL and keeps every other entry as it was. */
  function Cleanup(cache: Cache, now: int): (r: Cache)
    ensures forall u :: u in r <==> u in cache && now - cache[u].lastUpdated <= CacheTtl
    ensures forall u :: u in r ==> r[u] == cache[u]
  {
    map u | u in cache && !IsExpired(cache[u], now) :: cache[u]
  }

  /** The sweep is memory hygiene only: every read answers the same before and after it. */
  lemma CleanupInvisibleToLookup(cache: Cache, url: string, now: int)
    ensures Lookup(Cleanup(cache, now), url, now) == Lookup(cache, url, now)
  {
  }

  /** The two tests disagree at the boundary: an entry exactly one TTL old can
      no longer be read, yet the sweep keeps it. */
  lemma EntryAtTtlIsNeitherReadNorEvicted(cache: Cache, url: string, now: int)
    requires url in cache && now - cache[url].lastUpdated == CacheTtl
    ensures Lookup(cache, url, now) == None
    ensures url in Cleanup(cache, now) && Cleanup(cache, now)[url] == cache[url]
  {
  }

  /** An entry written at `t0` is served one millisecond before the TTL runs out and not one millisecond after. */
  lemma TtlWindow(cache: Cache, url: string, e: CacheEntry, t0: int)
    requires e.lastUpdated == t0
    ensures Lookup(cache[url := e], url, t0 + CacheTtl - 1) == Some(e)
    ensures Lookup(cache[url := e], url, t0 + CacheTtl + 1) == None
    ensures url !in Cleanup(cache[url := e], t0 + CacheTtl + 1)
  {
  }

  /** The random draws one request may consume, each uniform in [0, 1):
      the sweep trigger, the latency jitter, the status flip, the fallback
      verdict and the fallback latency. */
  datatype Draws = Draws(sweep: real, jitter: real, flip: real, fallback: real, latency: real)

  predicate ValidDraws(d: Draws) {
    && 0.0 <= d.sweep < 1.0
    && 0.0 <= d.jitter < 1.0
    && 0.0 <= d.flip < 1.0
    && 0.0 <= d.fallback < 1.0
    && 0.0 <= d.latency < 1.0
  }

  lemma JitterBounds(r: real, v: real)
    requires 0.0 <= r < 1.0 && v >= 0.0
    ensures -v <= r * v * 2.0 - v <= v
  {
    assert r * v <= v;
  }

  lemma FloorShift(cached: nat, shift: real)
    requires -(cached as real * 0.1) <= shift <= cached as real * 0.1
    ensures 0.9 * (cached as real) - 1.0 < (cached + shift.Floor) as real <= 1.1 * (cached as real)
  {
  }

  /** The latency replayed on a cache hit: the cached time moved by
      floor(r * 2v - v), where v is 10% of it, and never below 10 ms. Before
      the floor, the moved time lies in (0.9 * cached - 1, 1.1 * cached]. */
  function JitteredResponseTime(cached: nat, r: real): (t: nat)
    requires 0.0 <= r < 1.0
    ensures t >= 10
    ensures t == 10 || (0.9 * (cached as real) - 1.0 < t as real <= 1.1 * (cached as real))
    ensures 0.9 * (cached as real) - 1.0 >= 10.0 ==> 0.9 * (cached as real) - 1.0 < t as real <= 1.1 * (cached as real)
    ensures 1.1 * (cached as real) < 10.0 ==> t == 10
  {
    var moved := cached + Shift(cached, r);
    if moved > 10 then moved else 10
  }

  /** floor(r * 2v - v) for v = 10% of the cached time: a move of at most 10% either way, before the floor. */
  function Shift(cached: nat, r: real): (s: int)
    requires 0.0 <= r < 1.0
    ensures 0.9 * (cached as real) - 1.0 < (cached + s) as real <= 1.1 * (cached as real)
  {
    var variation := cached as real * 0.1;
    JitterBounds(r, variation);
    FloorShift(cached, r * variation * 2.0 - variation);
    (r * variation * 2.0 - variation).Floor
  }

  /** The status replayed on a cache hit: kept when the draw exceeds 0.02, flipped otherwise. */
  function ReplayedVerdict(cached: Verdict, r: real): (v: Verdict)
    ensures v == cached <==> r > 0.02
  {
    if r > 0.02 then cached else Opposite(cached)
  }

  /** The synthetic verdict for a probe that could not complete: UP when the
      draw exceeds 0.4, with a latency in [100, 600); DOWN otherwise, with none. */
  function FallbackVerdict(success: real, latency: real): (f: (Verdict, Option<nat>))
    requires 0.0 <= success < 1.0 && 0.0 <= latency < 1.0
    ensures f.0 == Up <==> success > 0.4
    ensures f.0 == Up ==> f.1.Some? && 100 <= f.1.value < 600
    ensures f.0 == Down ==> f.1 == None
  {
    if success > 0.4 then (Up, Some((latency * 500.0).Floor + 100)) else (Down, None)
  }

  /** The JSON body of a request: unreadable, or an object whose `url` field may be absent. */
  datatype Request = Unreadable | Body(url: Option<string>)

  /** What the HEAD probe did: it received a response (with `response.ok` and
      the status code) or it failed (timeout, DNS, refused connection); either
      way after `elapsed` milliseconds. */
  datatype ProbeOutcome =
    | Responded(ok: bool, statusCode: int, elapsed: nat)
    | ProbeError(message: string, elapsed: nat)

  /** The endpoint's reply: a 400 with an error message, or a 200 carrying a verdict.
      `cached` marks a replayed entry and `simulated` a synthetic verdict. */
  datatype Reply =
    | BadRequest(message: string)
    | Answer(url: string, verdict: Verdict, responseTime: Option<nat>, statusCode: Option<int>,
             timestamp: int, cached: bool, simulated: bool, error: Option<string>)

  datatype Handled = Handled(cache: Cache, reply: Reply)

  /** The entry the endpoint writes for an answer: its verdict, its latency (0 when absent) and its time. */
  function EntryFor(reply: Reply): (e: CacheEntry)
    requires reply.Answer?
    ensures e.verdict == reply.verdict && e.lastUpdated == reply.timestamp
    ensures reply.responseTime.Some? ==> e.responseTime == reply.responseTime.value
    ensures reply.responseTime.None? ==> e.responseTime == 0
  {
    CacheEntry(reply.verdict, reply.responseTime.GetOr(0), reply.timestamp)
  }

  /** Answers a request for a URL that passed validation, starting from the cache as it stands after the optional sweep. */
  function Serve(cache: Cache, url: string, now: int, d: Draws, probe: ProbeOutcome): (r: Handled)
    requires ValidDraws(d)
    ensures r.reply.Answer? && r.reply.url == url && r.reply.timestamp >= now
    ensures r.cache == cache[url := EntryFor(r.reply)]
    ensures r.reply.cached <==> Lookup(cache, url, now).Some?
    ensures r.reply.cached ==>
              && r.reply.timestamp == now
              && (r.reply.verdict == cache[url].verdict <==> d.flip > 0.02)
              && r.reply.responseTime == Some(JitteredResponseTime(cache[url].responseTime, d.jitter))
              && r.reply.statusCode == Some(if r.reply.verdict == Up then 200 else 500)
              && !r.reply.simulated
    ensures !r.reply.cached && probe.Responded? ==>
              && (r.reply.verdict == Up <==> probe.ok)
              && r.reply.responseTime == Some(probe.elapsed)
              && r.reply.statusCode == Some(probe.statusCode)
              && !r.reply.simulated
    ensures !r.reply.cached && probe.ProbeError? ==>
              && r.reply.simulated
              && r.reply.statusCode == None
              && r.reply.error == Some(probe.message)
              && (r.reply.verdict == Up <==> d.fallback > 0.4)
              && (r.reply.verdict == Up ==> r.reply.responseTime.Some? && 100 <= r.reply.responseTime.value < 600)
              && (r.reply.verdict == Down ==> r.reply.responseTime == None && r.cache[url].responseTime == 0)
  {
    match Lookup(cache, url, now)
    case Some(e) =>
      var t := JitteredResponseTime(e.responseTime, d.jitter);
      var v := ReplayedVerdict(e.verdict, d.flip);
      var reply := Answer(url, v, Some(t), Some(if v == Up then 200 else 500), now, true, false, None);
      Handled(cache[url := EntryFor(reply)], reply)
    case None =>
      match probe
      case Responded(ok, code, elapsed) =>
        var reply := Answer(url, if ok then Up else Down, Some(elapsed), Some(code), now + elapsed, false, false, None);
        Handled(cache[url := EntryFor(reply)], reply)
      case ProbeError(message, elapsed) =>
        var (v, t) := FallbackVerdict(d.fallback, d.latency);
        var reply := Answer(url, v, t, None, now + elapsed, false, true, Some(message));
        Handled(cache[url := EntryFor(reply)], reply)
  }

  /** A request the endpoint refuses with a 400: an unreadable body, a missing
      or empty `url`, or one that does not parse as a URL. */
  predicate IsBadRequest(req: Request, parse: string -> ParsedUrl) {
    || req.Unreadable?
    || req.url.None?
    || req.url.value == ""
    || parse(req.url.value).Unparsable?
  }

  /** `POST /api/check-url`. */
  function Handle(cache: Cache, req: Request, parse: string -> ParsedUrl, now: int, d: Draws, probe: ProbeOutcome): (r: Handled)
    requires ValidDraws(d)
    ensures r.reply.BadRequest? <==> IsBadRequest(req, parse)
    ensures r.reply.BadRequest? ==> r.cache == cache
    ensures r.reply.Answer? ==>
              && r.reply.url == req.url.value
              && r.reply.url in r.cache && r.cache[r.reply.url] == EntryFor(r.reply)
              && (r.reply.cached <==> Lookup(cache, r.reply.url, now).Some?)
    ensures r.reply.Answer? ==> forall u :: u in r.cache && u != r.reply.url ==> u in cache && r.cache[u] == cache[u]
    ensures r.reply.Answer? ==> forall u :: u in cache && !IsExpired(cache[u], now) ==> u in r.cache
    ensures r.reply.Answer? ==>
              forall u :: u in cache && u != r.reply.url ==> (u in r.cache <==> d.sweep >= SweepChance || !IsExpired(cache[u], now))
  {
    match req
    case Unreadable => Handled(cache, BadRequest("Invalid request body"))
    case Body(u) =>
      if u.None? || u.value == "" then Handled(cache, BadRequest("URL is required"))
      else if parse(u.value).Unparsable? then Handled(cache, BadRequest("Invalid URL format"))
      else
        var swept := if d.sweep < SweepChance then Cleanup(cache, now) else cache;
        CleanupInvisibleToLookup(cache, u.value, now);
        Serve(swept, u.value, now, d, probe)
  }

  /** How a client reads a reply: a 400 is a failed request, an answer carries its verdict and latency. */
  function OutcomeOf(reply: Reply): (o: CheckOutcome)
    ensures o.Failed? <==> reply.BadRequest?
    ensures o.Answered? ==> o.verdict == reply.verdict && o.responseTime == reply.responseTime
  {
    match reply
    case BadRequest(_) => Failed
    case Answer(_, v, t, _, _, _, _, _) => Answered(v, t)
  }
}

=== FILE: registry.dfy ===
/** The server-side URL registry (`/api/urls`): an in-memory list of records
    with an add that refuses duplicates, a one-shot initial check that fills in
    a new record's first verdict, and a delete by id.

    The new record's id (the server's clock as a string) and its time are
    parameters, and the initial check's reply is an input. */
module Registry {
  import opened Common
  import ProbeCache

  datatype Record = Record(id: string, url: string, status: Status, responseTime: Option<nat>,
                           lastChecked: int, uptime: real, history: seq<HistoryEntry>)

  type Database = seq<Record>

  /** The body of a DELETE: unreadable, or an object whose `id` field may be absent. */
  datatype DeleteRequest = Unreadable | Body(id: Option<string>)

  /** The HTTP answer: 201 with the created record, an error status with its message, or a 200 success. */
  datatype Response = Created(record: Record) | Rejected(code: int, error: string) | Deleted

  datatype Outcome = Outcome(db: Database, response: Response)

  function UrlsOf(db: Database): seq<string> {
    seq(|db|, i requires 0 <= i < |db| => db[i].url)
  }

  predicate UniqueUrls(db: Database) {
    forall i, j :: 0 <= i < j < |db| ==> db[i].url != db[j].url
  }

  predicate UniqueIds(db: Database) {
    forall i, j :: 0 <= i < j < |db| ==> db[i].id != db[j].id
  }

  predicate HasId(db: Database, id: string) {
    exists i :: 0 <= i < |db| && db[i].id == id
  }

  /** The position of the first record with this id. */
  function IndexOfId(db: Database, id: string): (k: Option<nat>)
    ensures k.None? <==> !HasId(db, id)
    ensures k.Some? ==> k.value < |db| && db[k.value].id == id
    ensures k.Some? ==> forall j :: 0 <= j < k.value ==> db[j].id != id
  {
    if |db| == 0 then None
    else if db[0].id == id then Some(0)
    else
      var rest := IndexOfId(db[1..], id);
      assert forall j :: 1 <= j < |db| ==> db[j] == db[1..][j - 1];
      if rest.Some? then Some(rest.value + 1) else None
  }

  /** `POST /api/urls`: 400 when the body is unreadable or `url` is missing or
      empty, 409 when the URL is already registered, and otherwise 201 with a
      new CHECKING record appended to the list. The URL's format is not checked. */
  function Post(db: Database, req: ProbeCache.Request, id: string, now: int): (r: Outcome)
    ensures r.response.Rejected? ==> r.db == db
    ensures r.response.Rejected? && r.response.code == 400 <==> req.Unreadable? || req.url.None? || req.url.value == ""
    ensures r.response == Rejected(409, "URL already exists") <==>
              req.Body? && req.url.Some? && req.url.value != "" && req.url.value in UrlsOf(db)
    ensures r.response.Created? <==> req.Body? && req.url.Some? && req.url.value != "" && req.url.value !in UrlsOf(db)
    ensures r.response.Created? ==>
              && r.db == db + [r.response.record]
              && r.response.record == Record(id, req.url.value, Checking, None, now, 0.0, [])
    ensures r.response.Rejected? || r.response.Created?
  {
    match req
    case Unreadable => Outcome(db, Rejected(400, "Invalid request"))
    case Body(url) =>
      if url.None? || url.value == "" then Outcome(db, Rejected(400, "URL is required"))
      else if url.value in UrlsOf(db) then Outcome(db, Rejected(409, "URL already exists"))
      else
        var record := Record(id, url.value, Checking, None, now, 0.0, []);
        Outcome(db + [record], Created(record))
  }

  /** Adding never registers a URL twice. */
  lemma PostKeepsUrlsUnique(db: Database, req: ProbeCache.Request, id: string, now: int)
    requires UniqueUrls(db)
    ensures UniqueUrls(Post(db, req, id, now).db)
  {
    var r := Post(db, req, id, now);
    if r.response.Created? {
      forall i | 0 <= i < |db| ensures db[i].url != req.url.value {
        assert UrlsOf(db)[i] == db[i].url;
      }
    }
  }

  /** What the initial check's request to the probe endpoint gave: nothing
      (the request or its JSON failed), or the answer's verdict, latency and time. */
  datatype Fetched = Unreachable | Result(verdict: Verdict, responseTime: Option<nat>, timestamp: int)

  /** Adding under an id no record has keeps ids unique. The source takes the
      id from the clock, so two adds in one millisecond would share one. */
  lemma PostKeepsIdsUnique(db: Database, req: ProbeCache.Request, id: string, now: int)
    requires UniqueIds(db) && !HasId(db, id)
    ensures UniqueIds(Post(db, req, id, now).db)
  {
  }

  /** The initial check, one second after the add: when its request succeeded
      and the record is still listed, the first record with that id takes the
      answer's status, latency and time, a history of exactly that one entry,
      and the uptime of that history. Anything else leaves the list as it was. */
  function InitialCheck(db: Database, id: string, fetched: Fetched): (r: Database)
    ensures fetched.Unreachable? || !HasId(db, id) ==> r == db
    ensures |r| == |db|
    ensures fetched.Result? && HasId(db, id) ==>
              var k := IndexOfId(db, id).value;
              && (forall j :: 0 <= j < |db| && j != k ==> r[j] == db[j])
              && r[k].id == db[k].id && r[k].url == db[k].url
              && r[k].status == Settled(fetched.verdict)
              && r[k].responseTime == fetched.responseTime
              && r[k].lastChecked == fetched.timestamp
              && r[k].history == [HistoryEntry(fetched.timestamp, fetched.verdict, fetched.responseTime)]
              && r[k].uptime == Uptime(r[k].history)
  {
    match fetched
    case Unreachable => db
    case Result(v, t, at) =>
      match IndexOfId(db, id)
      case None => db
      case Some(k) =>
        var h := [HistoryEntry(at, v, t)];
        UptimeExtremes(h);
        db[k := db[k].(status := Settled(v), responseTime := t, lastChecked := at,
                       uptime := if v == Up then 100.0 else 0.0, history := h)]
  }

  /** The initial check never changes which URLs are listed, so it keeps them unique. */
  lemma InitialCheckKeepsUrls(db: Database, id: string, fetched: Fetched)
    ensures UrlsOf(InitialCheck(db, id, fetched)) == UrlsOf(db)
  {
  }

  /** `DELETE /api/urls`: 400 when the body is unreadable or `id` is missing or
      empty, 404 when no record has that id, and otherwise the first record
      with that id is removed. */
  function Delete(db: Database, req: DeleteRequest): (r: Outcome)
    ensures r.response.Rejected? ==> r.db == db
    ensures r.response.Rejected? && r.response.code == 400 <==> req.Unreadable? || req.id.None? || req.id.value == ""
    ensures r.response == Rejected(404, "URL not found") <==>
              req.Body? && req.id.Some? && req.id.value != "" && !HasId(db, req.id.value)
    ensures r.response.Deleted? <==> req.Body? && req.id.Some? && req.id.value != "" && HasId(db, req.id.value)
    ensures r.response.Deleted? ==>
              var k := IndexOfId(db, req.id.value).value;
              r.db == db[..k] + db[k + 1..] && |r.db| == |db| - 1
    ensures r.response.Rejected? || r.response.Deleted?
  {
    match req
    case Unreadable => Outcome(db, Rejected(400, "Invalid request"))
    case Body(id) =>
      if id.None? || id.value == "" then Outcome(db, Rejected(400, "ID is required"))
      else
        match IndexOfId(db, id.value)
        case None => Outcome(db, Rejected(404, "URL not found"))
        case Some(k) => Outcome(db[..k] + db[k + 1..], Deleted)
  }

  /** Deleting keeps the remaining records in their order, so unique URLs stay unique. */
  lemma DeleteKeepsUrlsUnique(db: Database, req: DeleteRequest)
    requires UniqueUrls(db)
    ensures UniqueUrls(Delete(db, req).db)
  {
    var r := Delete(db, req);
    if r.response.Deleted? {
      var k := IndexOfId(db, req.id.value).value;
      forall i, j | 0 <= i < j < |r.db| ensures r.db[i].url != r.db[j].url {
        var i' := if i < k then i else i + 1;
        var j' := if j < k then j else j + 1;
        assert r.db[i] == db[i'] && r.db[j] == db[j'];
      }
    }
  }

  /** Deleting keeps ids unique, and with unique ids no record with the deleted id is left. */
  lemma {:induction false} DeleteKeepsIdsUnique(db: Database, req: DeleteRequest)
    requires UniqueIds(db)
    ensures UniqueIds(Delete(db, req).db)
    ensures Delete(db, req).response.Deleted? ==> !HasId(Delete(db, req).db, req.id.value)
  {
    var r := Delete(db, req);
    if r.response.Deleted? {
      var k := IndexOfId(db, req.id.value).value;
      forall i, j | 0 <= i < j < |r.db| ensures r.db[i].id != r.db[j].id {
        var i' := if i < k then i else i + 1;
        var j' := if j < k then j else j + 1;
        assert r.db[i] == db[i'] && r.db[j] == db[j'];
      }
      forall i | 0 <= i < |r.db| ensures r.db[i].id != req.id.value {
        var i' := if i < k then i else i + 1;
        assert r.db[i] == db[i'] && i' != k;
      }
    }
  }

  /** Adding a URL under a new id and deleting that id restores the list. */
  lemma PostThenDelete(db: Database, url: string, id: string, now: int)
    requires url != "" && id != "" && !HasId(db, id)
    requires url !in UrlsOf(db)
    ensures var added := Post(db, ProbeCache.Body(Some(url)), id, now);
            && added.response.Created?
            && Delete(added.db, Body(Some(id))) == Outcome(db, Deleted)
  {
    var added := Post(db, ProbeCache.Body(Some(url)), id, now);
    assert forall j :: 0 <= j < |db| ==> added.db[j] == db[j];
    assert added.db[|db|].id == id;
    var k := IndexOfId(added.db, id).value;
    assert k == |db|;
    assert added.db[..|db|] == db;
  }
}

=== FILE: scheduler.dfy ===
/** The real-time monitoring hook (hooks/use-real-time-monitoring.ts): a
    Stopped/Running flag with a timer handle, a private last-known-status map
    used to detect transitions, one monitoring cycle over the enabled URLs,
    and a ring of at most 50 cycle statistics.

    The timer, the clock and the probe endpoint are inputs: a cycle receives
    the outcome of each URL's request and the time `now`; starting receives the
    handle the timer would return. */
module Scheduler {
  import opened Common

  const MaxSamples: nat := 50

  datatype MonitoredUrl = MonitoredUrl(id: string, url: string, status: Status, responseTime: Option<nat>, isEnabled: bool)

  /** Last known status per URL id. */
  type Tracker = map<string, Status>

  datatype ProbeResult = ProbeResult(verdict: Verdict, responseTime: Option<nat>)

  /** The event passed to `onStatusChange`. */
  datatype StatusChange = StatusChange(id: string, oldStatus: Status, newStatus: Verdict, responseTime: Option<nat>)

  /** What one check yields: the answer's verdict and latency, or DOWN with no latency when the request failed. */
  function ResultOf(outcome: CheckOutcome): (r: ProbeResult)
    ensures outcome.Failed? ==> r == ProbeResult(Down, None)
    ensures outcome.Answered? ==> r == ProbeResult(outcome.verdict, outcome.responseTime)
  {
    match outcome
    case Answered(v, t) => ProbeResult(v, t)
    case Failed => ProbeResult(Down, None)
  }

  /** The status a check compares against: the tracked one when the id is tracked, else the URL's own. */
  function PriorStatus(tracker: Tracker, u: MonitoredUrl): (s: Status)
    ensures u.id in tracker ==> s == tracker[u.id]
    ensures u.id !in tracker ==> s == u.status
  {
    if u.id in tracker then tracker[u.id] else u.status
  }

  datatype Checked = Checked(tracker: Tracker, result: ProbeResult, change: Option<StatusChange>)

  /** One check: the tracker records the new status, and a change is reported
      exactly when the new status differs from the prior one. */
  function CheckUrl(tracker: Tracker, u: MonitoredUrl, outcome: CheckOutcome): (r: Checked)
    ensures r.result == ResultOf(outcome)
    ensures r.tracker.Keys == tracker.Keys + {u.id}
    ensures r.tracker[u.id] == Settled(r.result.verdict)
    ensures forall k :: k in tracker && k != u.id ==> r.tracker[k] == tracker[k]
    ensures r.change.Some? <==> PriorStatus(tracker, u) != Settled(r.result.verdict)
    ensures r.change.Some? ==> r.change.value == StatusChange(u.id, PriorStatus(tracker, u), r.result.verdict, r.result.responseTime)
  {
    var result := ResultOf(outcome);
    var prior := PriorStatus(tracker, u);
    var change := if prior != Settled(result.verdict) then Some(StatusChange(u.id, prior, result.verdict, result.responseTime)) else None;
    Checked(tracker[u.id := Settled(result.verdict)], result, change)
  }

  /** A URL that goes from UP to DOWN raises one change; checking it DOWN again raises none. */
  lemma DownAfterUpNotifiesOnce(tracker: Tracker, u: MonitoredUrl)
    requires PriorStatus(tracker, u) == Settled(Up)
    ensures var first := CheckUrl(tracker, u, Answered(Down, None));
            && first.change == Some(StatusChange(u.id, Settled(Up), Down, None))
            && CheckUrl(first.tracker, u, Answered(Down, None)).change == None
  {
  }

  /** A URL a cycle checks, with the outcome of its request. */
  datatype Job = Job(url: MonitoredUrl, outcome: CheckOutcome)

  /** The enabled URLs of the list, in order, each with its outcome. */
  function Jobs(urls: seq<MonitoredUrl>, outcomes: seq<CheckOutcome>): (jobs: seq<Job>)
    requires |outcomes| == |urls|
    ensures |jobs| <= |urls|
    ensures forall i :: 0 <= i < |jobs| ==> jobs[i].url.isEnabled
    ensures |urls| == 1 ==> jobs == if urls[0].isEnabled then [Job(urls[0], outcomes[0])] else []
  {
    if |urls| == 0 then []
    else
      var rest := Jobs(urls[1..], outcomes[1..]);
      if urls[0].isEnabled then [Job(urls[0], outcomes[0])] + rest else rest
  }

  /** The filter keeps list order: the jobs of a concatenation are the jobs of
      the first part followed by those of the second. */
  lemma {:induction false} JobsAppend(a: seq<MonitoredUrl>, oa: seq<CheckOutcome>, b: seq<MonitoredUrl>, ob: seq<CheckOutcome>)
    requires |oa| == |a| && |ob| == |b|
    ensures Jobs(a + b, oa + ob) == Jobs(a, oa) + Jobs(b, ob)
  {
    if |a| == 0 {
      assert a + b == b && oa + ob == ob;
    } else {
      assert (a + b)[1..] == a[1..] + b && (oa + ob)[1..] == oa[1..] + ob;
      JobsAppend(a[1..], oa[1..], b, ob);
    }
  }

  /** Every job is an enabled URL of the list paired with that URL's own outcome. */
  lemma {:induction false} JobsPairOutcomes(urls: seq<MonitoredUrl>, outcomes: seq<CheckOutcome>, k: nat)
    requires |outcomes| == |urls| && k < |Jobs(urls, outcomes)|
    ensures exists i :: 0 <= i < |urls| && urls[i].isEnabled && Jobs(urls, outcomes)[k] == Job(urls[i], outcomes[i])
  {
    var jobs := Jobs(urls, outcomes);
    var rest := Jobs(urls[1..], outcomes[1..]);
    if urls[0].isEnabled && k == 0 {
      assert jobs[0] == Job(urls[0], outcomes[0]);
    } else {
      var k' := if urls[0].isEnabled then k - 1 else k;
      assert jobs[k] == rest[k'];
      JobsPairOutcomes(urls[1..], outcomes[1..], k');
      var i :| 0 <= i < |urls[1..]| && urls[1..][i].isEnabled && rest[k'] == Job(urls[1..][i], outcomes[1..][i]);
      assert urls[1..][i] == urls[i + 1] && outcomes[1..][i] == outcomes[i + 1];
    }
  }

  /** Every enabled URL is checked, with its own outcome. */
  lemma {:induction false} JobsCoverEnabled(urls: seq<MonitoredUrl>, outcomes: seq<CheckOutcome>, i: nat)
    requires |outcomes| == |urls| && i < |urls| && urls[i].isEnabled
    ensures exists k :: 0 <= k < |Jobs(urls, outcomes)| && Jobs(urls, outcomes)[k] == Job(urls[i], outcomes[i])
  {
    var jobs := Jobs(urls, outcomes);
    var rest := Jobs(urls[1..], outcomes[1..]);
    var head := Job(urls[0], outcomes[0]);
    assert jobs == if urls[0].isEnabled then [head] + rest else rest;
    if i == 0 {
      assert jobs[0] == head;
    } else {
      assert urls[1..][i - 1] == urls[i] && outcomes[1..][i - 1] == outcomes[i];
      JobsCoverEnabled(urls[1..], outcomes[1..], i - 1);
      var k :| 0 <= k < |rest| && rest[k] == Job(urls[i], outcomes[i]);
      if urls[0].isEnabled {
        assert jobs[k + 1] == rest[k];
      } else {
        assert jobs[k] == rest[k];
      }
    }
  }

  /** Some URL of the list is enabled. */
  predicate AnyEnabled(urls: seq<MonitoredUrl>) {
    exists i :: 0 <= i < |urls| && urls[i].isEnabled
  }

  /** A cycle checks nothing exactly when no URL is enabled. */
  lemma JobsEmpty(urls: seq<MonitoredUrl>, outcomes: seq<CheckOutcome>)
    requires |outcomes| == |urls|
    ensures |Jobs(urls, outcomes)| == 0 <==> !AnyEnabled(urls)
  {
    var jobs := Jobs(urls, outcomes);
    if |jobs| > 0 {
      JobsPairOutcomes(urls, outcomes, 0);
    } else if AnyEnabled(urls) {
      var i :| 0 <= i < |urls| && urls[i].isEnabled;
      JobsCoverEnabled(urls, outcomes, i);
    }
  }

  /** The ids of the checked URLs. */
  function JobIds(jobs: seq<Job>): (ids: set<string>)
    ensures forall i :: 0 <= i < |jobs| ==> jobs[i].url.id in ids
    ensures forall k :: k in ids ==> exists i :: 0 <= i < |jobs| && jobs[i].url.id == k
  {
    if |jobs| == 0 then {}
    else
      var rest := JobIds(jobs[1..]);
      assert forall i :: 1 <= i < |jobs| ==> jobs[i] == jobs[1..][i - 1];
      {jobs[0].url.id} + rest
  }

  /** The change a check reports, if any. */
  function ChangeOf(start: Tracker, j: Job): (cs: seq<StatusChange>)
    ensures |cs| <= 1
    ensures |cs| == 1 <==> PriorStatus(start, j.url) != Settled(ResultOf(j.outcome).verdict)
    ensures |cs| == 1 ==> cs[0] == StatusChange(j.url.id, PriorStatus(start, j.url), ResultOf(j.outcome).verdict,
                                                ResultOf(j.outcome).responseTime)
  {
    var c := CheckUrl(start, j.url, j.outcome);
    if c.change.Some? then [c.change.value] else []
  }

  /** The changes one cycle reports, in list order. Every check reads its prior
      status from the tracker as it stood when the cycle began: all requests
      are issued before any answer arrives. */
  function Changes(start: Tracker, jobs: seq<Job>): (cs: seq<StatusChange>)
    ensures |cs| <= |jobs|
    ensures forall c :: c in cs ==> c.oldStatus != Settled(c.newStatus)
  {
    if |jobs| == 0 then [] else ChangeOf(start, jobs[0]) + Changes(start, jobs[1..])
  }

  /** Every transition of the cycle is reported: a check whose new status
      differs from the prior one raises exactly that change. */
  lemma {:induction false} ChangesReportTransitions(start: Tracker, jobs: seq<Job>, i: nat)
    requires i < |jobs|
    requires PriorStatus(start, jobs[i].url) != Settled(ResultOf(jobs[i].outcome).verdict)
    ensures StatusChange(jobs[i].url.id, PriorStatus(start, jobs[i].url), ResultOf(jobs[i].outcome).verdict,
                         ResultOf(jobs[i].outcome).responseTime) in Changes(start, jobs)
  {
    if i > 0 {
      assert jobs[i] == jobs[1..][i - 1];
      ChangesReportTransitions(start, jobs[1..], i - 1);
    }
  }

  /** Nothing else is reported: each change is the transition of one checked URL. */
  lemma {:induction false} ChangesAreTransitions(start: Tracker, jobs: seq<Job>, c: StatusChange)
    requires c in Changes(start, jobs)
    ensures exists i :: 0 <= i < |jobs| &&
              var v := ResultOf(jobs[i].outcome);
              && PriorStatus(start, jobs[i].url) != Settled(v.verdict)
              && c == StatusChange(jobs[i].url.id, PriorStatus(start, jobs[i].url), v.verdict, v.responseTime)
  {
    if c in ChangeOf(start, jobs[0]) {
      assert c == StatusChange(jobs[0].url.id, PriorStatus(start, jobs[0].url), ResultOf(jobs[0].outcome).verdict,
                               ResultOf(jobs[0].outcome).responseTime);
    } else {
      ChangesAreTransitions(start, jobs[1..], c);
      var i :| 0 <= i < |jobs[1..]| &&
               var v := ResultOf(jobs[1..][i].outcome);
               && PriorStatus(start, jobs[1..][i].url) != Settled(v.verdict)
               && c == StatusChange(jobs[1..][i].url.id, PriorStatus(start, jobs[1..][i].url), v.verdict, v.responseTime);
      assert jobs[i + 1] == jobs[1..][i];
    }
  }

  /** The tracker after one cycle: each answer is written in list order. Only
      checked ids enter it or change in it. */
  function Track(t: Tracker, jobs: seq<Job>): (r: Tracker)
    ensures r.Keys == t.Keys + JobIds(jobs)
    ensures forall k :: k in t && k !in JobIds(jobs) ==> r[k] == t[k]
    decreases |jobs|
  {
    if |jobs| == 0 then t
    else Track(t[jobs[0].url.id := Settled(ResultOf(jobs[0].outcome).verdict)], jobs[1..])
  }

  /** With distinct ids, each checked id ends up tracked with its own new status. */
  lemma {:induction false} TrackEachId(t: Tracker, jobs: seq<Job>)
    requires forall i, j :: 0 <= i < j < |jobs| ==> jobs[i].url.id != jobs[j].url.id
    ensures forall i :: 0 <= i < |jobs| ==> Track(t, jobs)[jobs[i].url.id] == Settled(ResultOf(jobs[i].outcome).verdict)
    decreases |jobs|
  {
    if |jobs| > 0 {
      var t' := t[jobs[0].url.id := Settled(ResultOf(jobs[0].outcome).verdict)];
      TrackEachId(t', jobs[1..]);
      assert forall i :: 1 <= i < |jobs| ==> jobs[i] == jobs[1..][i - 1];
      assert jobs[0].url.id !in JobIds(jobs[1..]);
    }
  }

  /** The result of each check of a cycle, in list order. */
  function Results(jobs: seq<Job>): (rs: seq<ProbeResult>)
    ensures |rs| == |jobs|
    ensures forall i :: 0 <= i < |jobs| ==> rs[i] == ResultOf(jobs[i].outcome)
  {
    seq(|jobs|, i requires 0 <= i < |jobs| => ResultOf(jobs[i].outcome))
  }

  datatype Sample = Sample(timestamp: int, totalChecks: nat, successfulChecks: nat, failedChecks: nat,
                           avgResponseTime: int, upUrls: nat, downUrls: nat)

  /** Number of results carrying verdict `v`. */
  function CountResults(results: seq<ProbeResult>, v: Verdict): (c: nat)
    ensures c <= |results|
    ensures c == 0 <==> forall i :: 0 <= i < |results| ==> results[i].verdict != v
    ensures c == |results| <==> forall i :: 0 <= i < |results| ==> results[i].verdict == v
    ensures |results| == 1 ==> c == if results[0].verdict == v then 1 else 0
  {
    if |results| == 0 then 0 else (if results[0].verdict == v then 1 else 0) + CountResults(results[1..], v)
  }

  lemma {:induction false} CountResultsAppend(a: seq<ProbeResult>, b: seq<ProbeResult>, v: Verdict)
    ensures CountResults(a + b, v) == CountResults(a, v) + CountResults(b, v)
  {
    if |a| == 0 {
      assert a + b == b;
    } else {
      assert (a + b)[1..] == a[1..] + b;
      CountResultsAppend(a[1..], b, v);
    }
  }

  lemma {:induction false} CountResultsPartition(results: seq<ProbeResult>)
    ensures CountResults(results, Up) + CountResults(results, Down) == |results|
  {
    if |results| > 0 {
      CountResultsPartition(results[1..]);
    }
  }

  /** The latencies a sample averages: every present one, zero included. */
  function PresentTimes(results: seq<ProbeResult>): (ts: seq<nat>)
    ensures |ts| <= |results|
    ensures |results| == 1 ==> ts == if results[0].responseTime.Some? then [results[0].responseTime.value] else []
  {
    if |results| == 0 then []
    else
      var rest := PresentTimes(results[1..]);
      match results[0].responseTime
      case Some(t) => [t] + rest
      case None => rest
  }

  /** The latencies keep the order and multiplicity of the checks they come from. */
  lemma {:induction false} PresentTimesAppend(a: seq<ProbeResult>, b: seq<ProbeResult>)
    ensures PresentTimes(a + b) == PresentTimes(a) + PresentTimes(b)
  {
    if |a| == 0 {
      assert a + b == b;
    } else {
      assert (a + b)[1..] == a[1..] + b;
      PresentTimesAppend(a[1..], b);
    }
  }

  /** A latency is averaged exactly when some check of the cycle produced it. */
  lemma {:induction false} PresentTimesMembers(results: seq<ProbeResult>)
    ensures forall t :: t in PresentTimes(results) <==> exists i :: 0 <= i < |results| && results[i].responseTime == Some(t)
    ensures |PresentTimes(results)| == 0 <==> forall i :: 0 <= i < |results| ==> results[i].responseTime.None?
  {
    if |results| > 0 {
      PresentTimesMembers(results[1..]);
      assert forall i :: 1 <= i < |results| ==> results[i] == results[1..][i - 1];
      assert forall t :: (exists i :: 0 <= i < |results| && results[i].responseTime == Some(t)) <==>
                         results[0].responseTime == Some(t) ||
                         exists i :: 0 <= i < |results[1..]| && results[1..][i].responseTime == Some(t);
    }
  }

  /** One cycle's statistics: checks, UP and DOWN counts (each reported twice,
      as the source does), and the rounded mean of the present latencies with
      divisor max(count, 1), so 0 when there are none. */
  function SampleOf(results: seq<ProbeResult>, now: int): (s: Sample)
    ensures s.timestamp == now && s.totalChecks == |results|
    ensures s.successfulChecks == s.upUrls == CountResults(results, Up)
    ensures s.failedChecks == s.downUrls == CountResults(results, Down)
    ensures s.successfulChecks + s.failedChecks == s.totalChecks
    ensures |PresentTimes(results)| == 0 ==> s.avgResponseTime == 0
    ensures |PresentTimes(results)| > 0 ==>
              MinOf(PresentTimes(results)) <= s.avgResponseTime <= MaxOf(PresentTimes(results))
  {
    CountResultsPartition(results);
    var ts := PresentTimes(results);
    var divisor := if |ts| > 1 then |ts| else 1;
    var mean := (Sum(ts) as real) / (divisor as real);
    if |ts| > 0 then
      MeanBetweenMinMax(ts);
      RoundBetween(mean, MinOf(ts), MaxOf(ts));
      Sample(now, |results|, CountResults(results, Up), CountResults(results, Down), Round(mean),
             CountResults(results, Up), CountResults(results, Down))
    else
      Sample(now, |results|, CountResults(results, Up), CountResults(results, Down), Round(mean),
             CountResults(results, Up), CountResults(results, Down))
  }

  /** A sample's latency is `Math.round` of the sum of the present latencies
      divided by their number, or by 1 when there is none. */
  lemma SampleOfRounds(results: seq<ProbeResult>, now: int)
    ensures var ts := PresentTimes(results);
            var mean := (Sum(ts) as real) / ((if |ts| > 1 then |ts| else 1) as real);
            var avg := SampleOf(results, now).avgResponseTime as real;
            avg - 0.5 <= mean < avg + 0.5
  {
  }

  /** The hook's state: the Running flag, the timer handle, the status tracker and the statistics ring. */
  datatype Monitor = Monitor(isMonitoring: bool, timer: Option<nat>, tracker: Tracker, stats: seq<Sample>)

  datatype CycleResult = CycleResult(monitor: Monitor, changes: seq<StatusChange>)

  /** One monitoring cycle. With no enabled URL nothing happens; otherwise the
      enabled URLs are checked, their transitions reported, their answers
      written to the tracker, and one sample of this time and these checks
      appended to the ring, which keeps its newest 50. */
  function Cycle(m: Monitor, urls: seq<MonitoredUrl>, outcomes: seq<CheckOutcome>, now: int): (r: CycleResult)
    requires |outcomes| == |urls|
    ensures !AnyEnabled(urls) ==> r == CycleResult(m, [])
    ensures r.monitor.isMonitoring == m.isMonitoring && r.monitor.timer == m.timer
    ensures AnyEnabled(urls) ==>
              var jobs := Jobs(urls, outcomes);
              && r.changes == Changes(m.tracker, jobs)
              && r.monitor.tracker == Track(m.tracker, jobs)
              && |r.monitor.stats| == (if |m.stats| < MaxSamples then |m.stats| + 1 else MaxSamples)
              && r.monitor.stats == (m.stats + [SampleOf(Results(jobs), now)])[|m.stats| + 1 - |r.monitor.stats|..]
    ensures |r.changes| <= |urls|
  {
    var jobs := Jobs(urls, outcomes);
    JobsEmpty(urls, outcomes);
    if |jobs| == 0 then CycleResult(m, [])
    else
      var sample := SampleOf(Results(jobs), now);
      var r := Advance(m, jobs, now);
      assert r.monitor.stats == PushSample(m.stats, sample);
      r
  }

  /** The effect of a cycle that checked `jobs`. */
  function Advance(m: Monitor, jobs: seq<Job>, now: int): (r: CycleResult)
    ensures r.changes == Changes(m.tracker, jobs) && |r.changes| <= |jobs|
    ensures r.monitor == m.(tracker := Track(m.tracker, jobs), stats := PushSample(m.stats, SampleOf(Results(jobs), now)))
  {
    CycleResult(m.(tracker := Track(m.tracker, jobs), stats := PushSample(m.stats, SampleOf(Results(jobs), now))),
                Changes(m.tracker, jobs))
  }

  /** The ring after one more sample: the sample appended and only the newest 50 kept. */
  function PushSample(stats: seq<Sample>, sample: Sample): (r: seq<Sample>)
    ensures |r| == if |stats| < MaxSamples then |stats| + 1 else MaxSamples
    ensures r == (stats + [sample])[|stats| + 1 - |r|..]
    ensures r[|r| - 1] == sample
  {
    TakeLast(stats + [sample], MaxSamples)
  }

  /** `startMonitoring` as a closure that saw the Running flag as `seenRunning`:
      a no-op when it saw Running; otherwise it sets Running, runs one cycle
      and arms the timer (`handle`). */
  function StartFrom(m: Monitor, seenRunning: bool, urls: seq<MonitoredUrl>, outcomes: seq<CheckOutcome>, now: int, handle: nat): (r: CycleResult)
    requires |outcomes| == |urls|
    ensures seenRunning ==> r == CycleResult(m, [])
    ensures !seenRunning ==> r.monitor.isMonitoring && r.monitor.timer == Some(handle)
    ensures !seenRunning ==>
              var c := Cycle(m.(isMonitoring := true), urls, outcomes, now);
              r.changes == c.changes && r.monitor == c.monitor.(timer := Some(handle))
  {
    if seenRunning then CycleResult(m, [])
    else
      var c := Cycle(m.(isMonitoring := true), urls, outcomes, now);
      c.(monitor := c.monitor.(timer := Some(handle)))
  }

  /** `startMonitoring` with the current flag. */
  function Start(m: Monitor, urls: seq<MonitoredUrl>, outcomes: seq<CheckOutcome>, now: int, handle: nat): (r: CycleResult)
    requires |outcomes| == |urls|
    ensures m.isMonitoring ==> r == CycleResult(m, [])
    ensures r.monitor.isMonitoring && (!m.isMonitoring ==> r.monitor.timer == Some(handle))
    ensures !m.isMonitoring ==>
              var c := Cycle(m.(isMonitoring := true), urls, outcomes, now);
              r.changes == c.changes && r.monitor == c.monitor.(timer := Some(handle))
  {
    StartFrom(m, m.isMonitoring, urls, outcomes, now, handle)
  }

  /** Starting twice is starting once. */
  lemma StartIdempotent(m: Monitor, urls: seq<MonitoredUrl>, outcomes: seq<CheckOutcome>, now: int, handle: nat, now': int, handle': nat)
    requires |outcomes| == |urls|
    ensures var first := Start(m, urls, outcomes, now, handle).monitor;
            Start(first, urls, outcomes, now', handle').monitor == first
  {
  }

  /** `stopMonitoring`: not Running, timer cleared, tracker and statistics kept. */
  function Stop(m: Monitor): (r: Monitor)
    ensures !r.isMonitoring && r.timer == None
    ensures r.tracker == m.tracker && r.stats == m.stats
  {
    m.(isMonitoring := false, timer := None)
  }

  /** The interval-change effect as written: it stops, then calls the
      `startMonitoring` of the same render, whose closure still sees Running. */
  function RestartAsWritten(m: Monitor, urls: seq<MonitoredUrl>, outcomes: seq<CheckOutcome>, now: int, handle: nat): (r: CycleResult)
    requires |outcomes| == |urls|
    ensures !m.isMonitoring ==> r == CycleResult(m, [])
  {
    if m.isMonitoring then StartFrom(Stop(m), m.isMonitoring, urls, outcomes, now, handle)
    else CycleResult(m, [])
  }

  /** As written, changing the interval of a running monitor leaves it stopped with no timer. */
  lemma RestartAsWrittenStops(m: Monitor, urls: seq<MonitoredUrl>, outcomes: seq<CheckOutcome>, now: int, handle: nat)
    requires |outcomes| == |urls| && m.isMonitoring
    ensures !RestartAsWritten(m, urls, outcomes, now, handle).monitor.isMonitoring
    ensures RestartAsWritten(m, urls, outcomes, now, handle).monitor.timer == None
  {
  }

  /** The interval-change effect as intended: a running monitor is stopped and
      started again, so it keeps running on a new timer. */
  function Restart(m: Monitor, urls: seq<MonitoredUrl>, outcomes: seq<CheckOutcome>, now: int, handle: nat): (r: CycleResult)
    requires |outcomes| == |urls|
    ensures !m.isMonitoring ==> r == CycleResult(m, [])
    ensures m.isMonitoring ==> r.monitor.isMonitoring && r.monitor.timer == Some(handle)
    ensures m.isMonitoring ==> r.monitor.tracker.Keys >= m.tracker.Keys
  {
    if m.isMonitoring then Start(Stop(m), urls, outcomes, now, handle) else CycleResult(m, [])
  }

  /** The ids of a list of URLs. */
  function IdsOf(urls: seq<MonitoredUrl>): (ids: set<string>)
    ensures forall i :: 0 <= i < |urls| ==> urls[i].id in ids
    ensures forall k :: k in ids ==> exists i :: 0 <= i < |urls| && urls[i].id == k
  {
    if |urls| == 0 then {}
    else
      var rest := IdsOf(urls[1..]);
      assert forall i :: 1 <= i < |urls| ==> urls[i] == urls[1..][i - 1];
      {urls[0].id} + rest
  }

  /** Tracking initialisation: every listed id enters the tracker, and ids
      already tracked keep their status. */
  function InitTracking(t: Tracker, urls: seq<MonitoredUrl>): (r: Tracker)
    ensures t.Keys <= r.Keys && forall i :: 0 <= i < |urls| ==> urls[i].id in r
    ensures forall k :: k in t ==> r[k] == t[k]
    decreases |urls|
  {
    if |urls| == 0 then t
    else
      var u := urls[0];
      assert forall i :: 1 <= i < |urls| ==> urls[i] == urls[1..][i - 1];
      InitTracking(if u.id in t then t else t[u.id := u.status], urls[1..])
  }

  /** Nothing but the listed ids enters the tracker. */
  lemma {:induction false} InitTrackingKeys(t: Tracker, urls: seq<MonitoredUrl>)
    ensures InitTracking(t, urls).Keys == t.Keys + IdsOf(urls)
    decreases |urls|
  {
    if |urls| > 0 {
      var u := urls[0];
      var t' := if u.id in t then t else t[u.id := u.status];
      InitTrackingKeys(t', urls[1..]);
      assert IdsOf(urls) == {u.id} + IdsOf(urls[1..]);
    }
  }

  /** An id not yet tracked takes the status of the first URL listed with it. */
  lemma {:induction false} InitTrackingFirstWins(t: Tracker, urls: seq<MonitoredUrl>, i: nat)
    requires i < |urls| && urls[i].id !in t
    requires forall j :: 0 <= j < i ==> urls[j].id != urls[i].id
    ensures InitTracking(t, urls)[urls[i].id] == urls[i].status
    decreases |urls|
  {
    var u := urls[0];
    var t' := if u.id in t then t else t[u.id := u.status];
    assert InitTracking(t, urls) == InitTracking(t', urls[1..]);
    if i > 0 {
      var rest := urls[1..];
      assert u.id != urls[i].id;
      assert urls[i].id !in t';
      assert rest[i - 1] == urls[i];
      forall j | 0 <= j < i - 1 ensures rest[j].id != rest[i - 1].id {
        assert rest[j] == urls[j + 1];
      }
      InitTrackingFirstWins(t', rest, i - 1);
    }
  }

  /** Initialising again with the same list changes nothing. */
  lemma InitTrackingIdempotent(t: Tracker, urls: seq<MonitoredUrl>)
    ensures InitTracking(InitTracking(t, urls), urls) == InitTracking(t, urls)
  {
    var once := InitTracking(t, urls);
    var twice := InitTracking(once, urls);
    InitTrackingKeys(t, urls);
    InitTrackingKeys(once, urls);
    assert twice.Keys == once.Keys;
  }
}

=== FILE: text.dfy ===
/** The string operations the bulk-add form and the tag editor rely on:
    JavaScript's `trim` and `split` on a single separator character. */
module Text {

  /** The characters `String.prototype.trim` strips: the ECMAScript
      WhiteSpace and LineTerminator code points. */
  predicate IsSpace(c: char) {
    || c in {'\t', '\n', '\U{B}', '\U{C}', '\r', ' ', '\U{A0}', '\U{1680}'}
    || c in {'\U{2028}', '\U{2029}', '\U{202F}', '\U{205F}', '\U{3000}', '\U{FEFF}'}
    || ('\U{2000}' <= c <= '\U{200A}')
  }

  predicate AllSpace(s: string) {
    forall i :: 0 <= i < |s| ==> IsSpace(s[i])
  }

  function TrimStart(s: string): (r: string)
    ensures |r| <= |s| && r == s[|s| - |r|..]
    ensures AllSpace(s[..|s| - |r|])
    ensures |r| > 0 ==> !IsSpace(r[0])
  {
    if |s| > 0 && IsSpace(s[0]) then TrimStart(s[1..]) else s
  }

  function TrimEnd(s: string): (r: string)
    ensures |r| <= |s| && r == s[..|r|]
    ensures AllSpace(s[|r|..])
    ensures |r| > 0 ==> !IsSpace(r[|r| - 1])
  {
    if |s| > 0 && IsSpace(s[|s| - 1]) then TrimEnd(s[..|s| - 1]) else s
  }

  /** `s.trim()`: `s` without its leading and trailing white space. The result
      is empty exactly when `s` is all white space, and otherwise starts and
      ends with a character that is not white space. */
  function Trim(s: string): (r: string)
    ensures |r| <= |s|
    ensures r == [] <==> AllSpace(s)
    ensures |r| > 0 ==> !IsSpace(r[0]) && !IsSpace(r[|r| - 1])
  {
    TrimBlank(s);
    TrimEnd(TrimStart(s))
  }

  /** The trimmed string is the slice of `s` left between its leading and trailing white space. */
  lemma TrimIsSlice(s: string)
    ensures exists a, b :: 0 <= a <= b <= |s| && Trim(s) == s[a..b] && AllSpace(s[..a]) && AllSpace(s[b..])
  {
    var t := TrimStart(s);
    InnerSlice(s, t, TrimEnd(t));
  }

  /** A prefix `r` of a suffix `t` of `s`, with only white space cut off on either side. */
  lemma InnerSlice(s: string, t: string, r: string)
    requires |t| <= |s| && t == s[|s| - |t|..] && AllSpace(s[..|s| - |t|])
    requires |r| <= |t| && r == t[..|r|] && AllSpace(t[|r|..])
    ensures exists a, b :: 0 <= a <= b <= |s| && r == s[a..b] && AllSpace(s[..a]) && AllSpace(s[b..])
  {
    var a := |s| - |t|;
    var b := a + |r|;
    assert r == s[a..b];
    assert s[b..] == t[|r|..];
  }

  lemma TrimBlank(s: string)
    ensures TrimEnd(TrimStart(s)) == [] <==> AllSpace(s)
  {
    var t := TrimStart(s);
    var k := |s| - |t|;
    if TrimEnd(t) == [] {
      assert AllSpace(t[0..]);
      forall i | 0 <= i < |s|
        ensures IsSpace(s[i])
      {
        assert i < k;
        assert s[..k][i] == s[i];
      }
    }
  }

  /** Trimming twice is trimming once. */
  lemma TrimIdempotent(s: string)
    ensures Trim(Trim(s)) == Trim(s)
  {
    var r := Trim(s);
    assert TrimStart(r) == r;
    assert TrimEnd(r) == r;
  }

  function IndexOf(s: string, c: char): (i: nat)
    requires c in s
    ensures i < |s| && s[i] == c && c !in s[..i]
  {
    if s[0] == c then 0 else 1 + IndexOf(s[1..], c)
  }

  /** `s.split(sep)` for a one-character separator: the maximal separator-free
      pieces, with an empty piece before a leading and after a trailing separator. */
  function Split(s: string, sep: char): (parts: seq<string>)
    ensures |parts| > 0
    ensures forall i :: 0 <= i < |parts| ==> sep !in parts[i]
    decreases |s|
  {
    if sep !in s then [s]
    else
      var i := IndexOf(s, sep);
      [s[..i]] + Split(s[i + 1..], sep)
  }

  /** `parts.join(sep)`. */
  function Join(parts: seq<string>, sep: char): string
    requires |parts| > 0
  {
    if |parts| == 1 then parts[0] else parts[0] + [sep] + Join(parts[1..], sep)
  }

  /** Splitting loses nothing: joining the pieces restores the string. */
  lemma {:induction false} JoinSplit(s: string, sep: char)
    ensures Join(Split(s, sep), sep) == s
    decreases |s|
  {
    if sep in s {
      var i := IndexOf(s, sep);
      JoinSplit(s[i + 1..], sep);
      assert s == s[..i] + [sep] + s[i + 1..];
    }
  }

  /** Splitting a join of separator-free pieces gives the pieces back. */
  lemma {:induction false} SplitJoin(parts: seq<string>, sep: char)
    requires |parts| > 0
    requires forall i :: 0 <= i < |parts| ==> sep !in parts[i]
    ensures Split(Join(parts, sep), sep) == parts
  {
    if |parts| > 1 {
      var k := |parts[0]|;
      var rest := Join(parts[1..], sep);
      var s := parts[0] + [sep] + rest;
      assert Join(parts, sep) == s;
      assert s[..k] == parts[0] && s[k + 1..] == rest;
      SplitAt(s, sep, k);
      assert forall i :: 0 <= i < |parts[1..]| ==> sep !in parts[1..][i];
      SplitJoin(parts[1..], sep);
    }
  }

  /** Splitting at the first separator. */
  lemma SplitAt(s: string, sep: char, k: nat)
    requires k < |s| && s[k] == sep && sep !in s[..k]
    ensures Split(s, sep) == [s[..k]] + Split(s[k + 1..], sep)
  {
    IndexOfFirst(s, sep, k);
  }

  lemma IndexOfFirst(s: string, c: char, k: nat)
    requires k < |s| && s[k] == c && c !in s[..k]
    ensures IndexOf(s, c) == k
  {
  }
}

=== FILE: url_metrics.dfy ===
/** The metrics panel of one monitored URL (components/url-metrics.tsx): the
    history seen through a 24-hour, 7-day or 30-day window, the counts,
    uptime and latency figures computed over it, the reliability score, and
    the tag editor. The clock is the parameter `now`, in milliseconds. */
module UrlMetrics {
  import opened Common
  import Text

  datatype TimeRange = Day | Week | Month

  const DayMs: nat := 24 * 60 * 60 * 1000

  /** The width of a window in milliseconds. */
  function RangeMs(range: TimeRange): (w: nat)
    ensures range == Day ==> w == 86_400_000
    ensures range == Week ==> w == 7 * 86_400_000
    ensures range == Month ==> w == 30 * 86_400_000
  {
    match range
    case Day => DayMs
    case Week => 7 * DayMs
    case Month => 30 * DayMs
  }

  predicate InRange(e: HistoryEntry, now: int, range: TimeRange) {
    now - e.timestamp <= RangeMs(range)
  }

  /** The checks at most one window old, in their original order. */
  function FilterHistory(h: seq<HistoryEntry>, now: int, range: TimeRange): (f: seq<HistoryEntry>)
    ensures |f| <= |h|
    ensures forall e :: e in f <==> e in h && now - e.timestamp <= RangeMs(range)
    ensures (forall i :: 0 <= i < |h| ==> InRange(h[i], now, range)) ==> f == h
  {
    if |h| == 0 then []
    else
      var rest := FilterHistory(h[1..], now, range);
      assert forall i :: 1 <= i < |h| ==> h[i] == h[1..][i - 1];
      assert forall e :: e in h <==> e == h[0] || e in h[1..];
      if InRange(h[0], now, range) then [h[0]] + rest else rest
  }

  /** Filtering keeps order: the window of a concatenation is the concatenation of the windows. */
  lemma {:induction false} FilterHistoryAppend(a: seq<HistoryEntry>, b: seq<HistoryEntry>, now: int, range: TimeRange)
    ensures FilterHistory(a + b, now, range) == FilterHistory(a, now, range) + FilterHistory(b, now, range)
  {
    if |a| == 0 {
      assert a + b == b;
    } else {
      assert (a + b)[1..] == a[1..] + b;
      FilterHistoryAppend(a[1..], b, now, range);
    }
  }

  /** The windows nest: narrowing the 7-day or 30-day view to 24 hours gives the 24-hour view. */
  lemma {:induction false} NarrowerWindowWins(h: seq<HistoryEntry>, now: int, wide: TimeRange)
    ensures FilterHistory(FilterHistory(h, now, wide), now, Day) == FilterHistory(h, now, Day)
  {
    if |h| > 0 {
      NarrowerWindowWins(h[1..], now, wide);
      if InRange(h[0], now, wide) {
        assert FilterHistory(h, now, wide) == [h[0]] + FilterHistory(h[1..], now, wide);
        assert ([h[0]] + FilterHistory(h[1..], now, wide))[1..] == FilterHistory(h[1..], now, wide);
      }
    }
  }

  /** The latencies the panel aggregates: every non-null one, zero included. */
  function KnownTimes(h: seq<HistoryEntry>): (ts: seq<nat>)
    ensures |ts| <= |h|
    ensures |h| == 1 ==> ts == if h[0].responseTime.Some? then [h[0].responseTime.value] else []
  {
    if |h| == 0 then []
    else
      var rest := KnownTimes(h[1..]);
      match h[0].responseTime
      case Some(t) => [t] + rest
      case None => rest
  }

  /** A latency is aggregated exactly when some check in the window carries it. */
  lemma {:induction false} KnownTimesMembers(h: seq<HistoryEntry>)
    ensures forall t :: t in KnownTimes(h) <==> exists i :: 0 <= i < |h| && h[i].responseTime == Some(t)
    ensures |KnownTimes(h)| == 0 <==> forall i :: 0 <= i < |h| ==> h[i].responseTime.None?
  {
    if |h| > 0 {
      KnownTimesMembers(h[1..]);
      assert forall i :: 1 <= i < |h| ==> h[i] == h[1..][i - 1];
      assert forall t :: (exists i :: 0 <= i < |h| && h[i].responseTime == Some(t)) <==>
                         h[0].responseTime == Some(t) || exists i :: 0 <= i < |h[1..]| && h[1..][i].responseTime == Some(t);
    }
  }

  /** The latencies keep the order and multiplicity of the checks they come
      from: those of a concatenation are the concatenation of those of the parts. */
  lemma {:induction false} KnownTimesAppend(a: seq<HistoryEntry>, b: seq<HistoryEntry>)
    ensures KnownTimes(a + b) == KnownTimes(a) + KnownTimes(b)
  {
    if |a| == 0 {
      assert a + b == b;
    } else {
      assert (a + b)[1..] == a[1..] + b;
      KnownTimesAppend(a[1..], b);
    }
  }

  /** The latency bonus of the reliability score: 30 under 500 ms, 20 under 1000 ms, 10 otherwise. */
  function Bonus(avg: real): (b: int)
    ensures b == 10 || b == 20 || b == 30
    ensures b == 30 <==> avg < 500.0
    ensures b == 10 <==> avg >= 1000.0
  {
    if avg < 500.0 then 30 else if avg < 1000.0 then 20 else 10
  }

  /** The reliability score: 0 without checks, otherwise the rounded sum of 70% of the uptime and the latency bonus. */
  function Reliability(total: nat, uptime: real, avg: real): (s: int)
    requires 0.0 <= uptime <= 100.0
    ensures total == 0 ==> s == 0
    ensures 0 <= s <= 100
    ensures total > 0 ==> Bonus(avg) <= s
    ensures total > 0 ==> (s as real) - 0.5 <= uptime * 0.7 + (Bonus(avg) as real) < (s as real) + 0.5
  {
    if total > 0 then
      RoundBetween(uptime * 0.7 + Bonus(avg) as real, Bonus(avg), 100);
      Round(uptime * 0.7 + Bonus(avg) as real)
    else 0
  }

  /** A better uptime never lowers the score. */
  lemma ReliabilityMonotone(total: nat, u1: real, u2: real, avg: real)
    requires 0.0 <= u1 <= u2 <= 100.0
    ensures Reliability(total, u1, avg) <= Reliability(total, u2, avg)
  {
  }

  /** The score is 100 for a fully available, fast URL, and the bare bonus for one never up. */
  lemma ReliabilityExtremes(total: nat, avg: real)
    requires total > 0
    ensures avg < 500.0 ==> Reliability(total, 100.0, avg) == 100
    ensures Reliability(total, 0.0, avg) == Bonus(avg)
  {
  }

  /** The latency figures of the panel: mean, minimum and maximum of the known latencies, all 0 without any. */
  datatype Latency = Latency(avg: real, min: nat, max: nat)

  function LatencyOf(ts: seq<nat>): (l: Latency)
    ensures |ts| == 0 ==> l == Latency(0.0, 0, 0)
    ensures |ts| > 0 ==> l.avg == (Sum(ts) as real) / (|ts| as real)
    ensures |ts| > 0 ==>
              && l.min in ts && l.max in ts
              && (forall i :: 0 <= i < |ts| ==> l.min <= ts[i] <= l.max)
              && (l.min as real) <= l.avg <= (l.max as real)
  {
    if |ts| > 0 then
      MeanBetweenMinMax(ts);
      Latency((Sum(ts) as real) / (|ts| as real), MinOf(ts), MaxOf(ts))
    else Latency(0.0, 0, 0)
  }

  datatype Metrics = Metrics(totalChecks: nat, successfulChecks: nat, failedChecks: nat, uptimePercentage: real,
                             avgResponseTime: real, minResponseTime: nat, maxResponseTime: nat, reliabilityScore: int)

  /** The panel's figures for the history seen through the chosen window. */
  function MetricsOf(h: seq<HistoryEntry>, now: int, range: TimeRange): (m: Metrics)
    ensures var f := FilterHistory(h, now, range);
            && m.totalChecks == |f|
            && m.successfulChecks == CountVerdict(f, Up)
            && m.failedChecks == CountVerdict(f, Down)
            && m.uptimePercentage == Uptime(f)
    ensures m.successfulChecks + m.failedChecks == m.totalChecks
    ensures 0.0 <= m.uptimePercentage <= 100.0
    ensures m.totalChecks == 0 ==> m.uptimePercentage == 0.0 && m.reliabilityScore == 0
    ensures var ts := KnownTimes(FilterHistory(h, now, range));
            && (|ts| == 0 ==> m.avgResponseTime == 0.0 && m.minResponseTime == 0 && m.maxResponseTime == 0)
            && (|ts| > 0 ==>
                  && m.avgResponseTime == (Sum(ts) as real) / (|ts| as real)
                  && m.minResponseTime in ts && m.maxResponseTime in ts
                  && (forall i :: 0 <= i < |ts| ==> m.minResponseTime <= ts[i] <= m.maxResponseTime)
                  && (m.minResponseTime as real) <= m.avgResponseTime <= (m.maxResponseTime as real))
    ensures 0 <= m.reliabilityScore <= 100
    ensures m.reliabilityScore == Reliability(m.totalChecks, m.uptimePercentage, m.avgResponseTime)
  {
    var f := FilterHistory(h, now, range);
    CountVerdictPartition(f);
    var uptime := Uptime(f);
    var l := LatencyOf(KnownTimes(f));
    Metrics(|f|, CountVerdict(f, Up), CountVerdict(f, Down), uptime, l.avg, l.min, l.max, Reliability(|f|, uptime, l.avg))
  }

  predicate NoDuplicates(tags: seq<string>) {
    forall i, j :: 0 <= i < j < |tags| ==> tags[i] != tags[j]
  }

  /** `addTag`: the trimmed input is appended when it is non-empty and not yet a tag. */
  function AddTag(tags: seq<string>, input: string): (r: seq<string>)
    ensures Text.Trim(input) != [] ==> Text.Trim(input) in r
    ensures Text.Trim(input) == [] || Text.Trim(input) in tags ==> r == tags
    ensures |tags| <= |r| <= |tags| + 1 && r[..|tags|] == tags
    ensures forall x :: x in r ==> x in tags || x == Text.Trim(input)
    ensures NoDuplicates(tags) ==> NoDuplicates(r)
  {
    var t := Text.Trim(input);
    if t != [] && t !in tags then tags + [t] else tags
  }

  /** `removeTag`: every occurrence of the tag goes, the other tags stay. */
  function RemoveTag(tags: seq<string>, tag: string): (r: seq<string>)
    ensures |r| <= |tags|
    ensures forall x :: x in r <==> x in tags && x != tag
    ensures tag !in tags ==> r == tags
  {
    if |tags| == 0 then []
    else
      var rest := RemoveTag(tags[1..], tag);
      assert forall x :: x in tags <==> x == tags[0] || x in tags[1..];
      if tags[0] == tag then rest else [tags[0]] + rest
  }

  /** Removal keeps order: removing from a concatenation removes from each part. */
  lemma {:induction false} RemoveTagAppend(a: seq<string>, b: seq<string>, tag: string)
    ensures RemoveTag(a + b, tag) == RemoveTag(a, tag) + RemoveTag(b, tag)
  {
    if |a| == 0 {
      assert a + b == b;
    } else {
      assert (a + b)[1..] == a[1..] + b;
      RemoveTagAppend(a[1..], b, tag);
    }
  }

  /** Removing a tag just added restores the tag list. */
  lemma AddThenRemoveTag(tags: seq<string>, input: string)
    requires Text.Trim(input) != [] && Text.Trim(input) !in tags
    ensures RemoveTag(AddTag(tags, input), Text.Trim(input)) == tags
  {
    var t := Text.Trim(input);
    RemoveTagAppend(tags, [t], t);
    assert RemoveTag([t], t) == [];
  }
}
